=== FILE: README.md ===
# Task list, forum pagination and dashboard counters — a Dafny model

The repository is a browser client for a to-do and forum site backed by a JSON document store.
Most of its code builds DOM nodes and issues `fetch` calls. This project lifts out the pure rules
mixed into that code and states them over immutable data:

- **Task list** (`tarefa.js`). The list is sorted in place by priority rank: alta = 1, media = 2,
  baixa = 3. Each task's card goes to one of five sections: overdue, alta, media, baixa or done.
  A section is shown only if it received a card. An open card shows a remaining-time label. The
  edit form gets the due date as `YYYY-MM-DD`. Four event handlers change the page's task list
  before they send a PUT: complete toggle, priority change, edit save and subtask checkbox. When
  the server answers, its copy replaces the record at the handler's position.
- **Forum** (`forum/api/discussions.js`). A page number becomes an offset range meant to hold five
  discussions and a listing URL. The module also builds the create and update requests.
- **Dashboard** (`home/home.js`). It writes the current date as a string, counts completed tasks,
  and computes the done and pending figures of its two charts.

Modules: `Wrappers` (Option), `Seqs` (`filter`, `findIndex`), `Text` (number-to-string,
`parseInt`, padding, `split`/`join`), `Calendar` (the fields of a `Date`), `Rest` (requests and
record URLs), `Tasks` (records, rank, stable sort), `TaskView` (sections, rendering, labels, date
formatting), `TaskHandlers` (local mutations), `Discussions` and `Home`.

Modelling choices:
- A due date (`term`) and "today" are day numbers, and today is a parameter. Comparing them
  stands for comparing `Date` objects truncated to local midnight. Where the source formats a
  `Date`, the model takes the three getter values (`CivilDate`: year, zero-based month, day).
- `priority` is an enum of the three values the priority selector offers.
- `data-task-id` is read as the number it spells. So `findIndex((t, index) => index == taskId)`
  finds position `taskId` when it is in range and gives -1 otherwise (`TaskHandlers.LookUp`).
- `renderTasks` sorts the page's task array in place. So the positions the handlers use are
  positions in the sorted list (`TaskView.RenderTasks` returns that list).
- `parseInt` returning `NaN`, and `undefined` where a value is missing, are both modelled as `None`.
- `generateRemainingDates` has a `return 'Vence hoje'` branch (tarefa.js:156-159), but guards
  it with `today === term`, an identity test on two `Date` objects created separately at lines
  136 and 144, which is never true. The model follows the code: a task due today reads "Venceu".
  The evidently intended label is modelled next to it (see Findings).
- The forum's backend is JSON Server (named at tarefa.js:29). Its `_start`/`_end` query operators
  slice the collection like `Array.prototype.slice`, with `_end` exclusive. `getDiscussions`
  computes `end` as if it were inclusive; the model states both readings (see Findings).

## Model

| member | source | states |
|---|---|---|
| Tasks.Rank | codigo/public/assets/js/tarefas/tarefa.js:44 | every priority has a rank from 1 to 3; with Tasks.RankOrder this fixes alta = 1, media = 2, baixa = 3 |
| Tasks.SortByPriority | codigo/public/assets/js/tarefas/tarefa.js:46-49 | the sort is a permutation of its input; Tasks.SortIsGrouped shows it equals the grouped reference order, and Tasks.SortByPriorityCorrect that it is sorted and stable |
| Tasks.RankOrder | codigo/public/assets/js/tarefas/tarefa.js:44 | alta ranks before media and media before baixa, and two priorities have the same rank exactly when they are the same priority |
| Tasks.SortIsGrouped | codigo/public/assets/js/tarefas/tarefa.js:46-49 | the insertion sort equals an independent reference order: all alta tasks, then all media, then all baixa, each group in input order |
| Tasks.SortByPriorityCorrect | codigo/public/assets/js/tarefas/tarefa.js:44-49 | the sort gives a permutation in non-decreasing rank, and for every priority the tasks of that priority keep their relative order (stability) |
| Tasks.SortOfSortedIsIdentity | codigo/public/assets/js/tarefas/tarefa.js:46-49 | sorting a list already sorted by rank leaves it unchanged, so re-rendering does not reorder the list |
| TaskView.SectionOf | codigo/public/assets/js/tarefas/tarefa.js:101-115 | a task goes to Done iff complete, to Overdue iff open and due before today, and otherwise (open, due today or later) to the section numbered by its rank |
| TaskView.CardInOneSection | codigo/public/assets/js/tarefas/tarefa.js:101-115 | a listed task's card is in the section of its bucket and in no other section |
| TaskView.SectionsPartition | codigo/public/assets/js/tarefas/tarefa.js:101-115 | the five sections together hold every task exactly once: their multisets add up to the list, and so do their lengths |
| TaskView.RenderTasks | codigo/public/assets/js/tarefas/tarefa.js:34-116 | rendering leaves the list sorted, a stable permutation of its input; each section holds exactly its bucket's cards in list order; a section is shown iff it has a card iff some task of the input belongs to it |
| TaskView.RemainingLabel | codigo/public/assets/js/tarefas/tarefa.js:134-163 | the remaining-time label of an open task, as the code computes it; its meaning is stated by TaskView.RemainingLabelShape and TaskView.RemainingLabelMeaning |
| TaskView.RemainingLabelShape | codigo/public/assets/js/tarefas/tarefa.js:149-154 | for a future due date the label is exactly "Vence em ", a decimal numeral without leading zeros whose value is term − today, and " dia" if that number is 1 or " dias" otherwise, with nothing after it |
| TaskView.RemainingLabelMeaning | codigo/public/assets/js/tarefas/tarefa.js:134-163 | for a future due date the number read back from the label is term − today and the unit is singular iff that number is 1; for a due date today or earlier the label is "Venceu" and announces nothing; "Vence hoje" is never produced |
| TaskView.RemainingLabelExamples | codigo/public/assets/js/tarefas/tarefa.js:149-161 | tomorrow gives "Vence em 1 dia", five days ahead "Vence em 5 dias", today and yesterday "Venceu" |
| TaskView.IntendedRemainingLabelMeaning | codigo/public/assets/js/tarefas/tarefa.js:156-159 | the corrected label reads "Vence hoje" exactly on the due date and "Venceu" exactly after it |
| TaskView.DueTodayDiscrepancy | codigo/public/assets/js/tarefas/tarefa.js:156-161 | the code's label and the corrected label differ exactly when the task is due today |
| TaskView.FormatDate | codigo/public/assets/js/tarefas/tarefa.js:239-250 | `formatDate` on the three `Date` getters; TaskView.FormatDateRoundTrip states that TaskView.ParseTerm reads it back exactly when the year is not negative |
| TaskView.ParseTerm | codigo/public/assets/js/tarefas/tarefa.js:138-142 | splits a due-date string at '-' and reads year, zero-based month and day, `NaN` as None; the inverse of TaskView.FormatDate for years that are not negative, see TaskView.FormatDateRoundTrip |
| TaskView.FormatDateRoundTrip | codigo/public/assets/js/tarefas/tarefa.js:239-250 | splitting `formatDate`'s output at '-' and parsing it as lines 138-142 do recovers the year, zero-based month and day, and this holds exactly when the year is not negative |
| Text.ParseInt | codigo/public/assets/js/tarefas/tarefa.js:140-142 | `parseInt(s, 10)` gives a number iff the text starts with a digit, or with a sign and a digit; Text.ParseIntOfIntToString shows it reads back every decimal integer of the model |
| Text.PadTwo | codigo/public/assets/js/tarefas/tarefa.js:246-247 | a numeral shorter than two characters gets one leading '0', a longer one is unchanged |
| Text.ParseIntOfPadded | codigo/public/assets/js/tarefas/tarefa.js:246-247 | `parseInt` reads a zero-padded month or day back as the number it pads |
| Text.ParseIntOfIntToString | codigo/public/assets/js/tarefas/tarefa.js:142 | `parseInt` reads back every integer written in decimal, negative ones included; for JavaScript this holds below 2^53 in magnitude, see Left out |
| Text.SplitOfJoin | codigo/public/assets/js/tarefas/tarefa.js:249 | joining pieces that contain no separator and splitting the result gives back the pieces |
| Seqs.FindIndex | codigo/public/assets/js/tarefas/tarefa.js:168 | the result is -1 iff no element matches; otherwise it is the first matching position |
| TaskHandlers.LookUp | codigo/public/assets/js/tarefas/tarefa.js:168-169 | the lookup by `index == taskId` gives `taskId` when it is a position of the list and -1 otherwise |
| TaskHandlers.PutAt | codigo/public/assets/js/tarefas/tarefa.js:173-179 | the handler sends a PUT whose body is the record at its position and whose URL names that record's id under `/tasks` |
| TaskHandlers.ToggleComplete | codigo/public/assets/js/tarefas/tarefa.js:165-178 | at an in-range position only that task's `complete` is negated, every other task is unchanged, and the request sent is `TaskHandlers.PutAt` of the changed list at that position: a PUT of the changed record to `/tasks/<its id>`; an out-of-range position changes nothing and sends nothing |
| TaskHandlers.ToggleCompleteTwice | codigo/public/assets/js/tarefas/tarefa.js:171 | toggling twice at the same position restores the list |
| TaskHandlers.ToggleCompleteMovesCard | codigo/public/assets/js/tarefas/tarefa.js:171-191 | the toggled record belongs to Done iff it was open before; the card moves there on the render after a successful PUT, which with an echoing server (TaskHandlers.EchoedReplyKeepsList) renders this record |
| TaskHandlers.ChangePriority | codigo/public/assets/js/tarefas/tarefa.js:199-212 | only the target task's `priority` is written; other tasks and fields are unchanged; a PUT of the changed record to `/tasks/<its id>` is sent; a missing position changes nothing and sends nothing |
| TaskHandlers.ChangePriorityUndo | codigo/public/assets/js/tarefas/tarefa.js:205 | choosing the old priority again restores the list |
| TaskHandlers.ChangePriorityMovesCard | codigo/public/assets/js/tarefas/tarefa.js:205-225 | an open task that is not overdue, given priority p, belongs to section Rank(p); the card moves there on the render after a successful PUT |
| TaskHandlers.SaveTask | codigo/public/assets/js/tarefas/tarefa.js:303-317 | only the target task's title, description and due date are written; everything else is unchanged; a PUT of the changed record to `/tasks/<its id>` is sent; a missing position changes nothing and sends nothing |
| TaskHandlers.SaveTaskUndo | codigo/public/assets/js/tarefas/tarefa.js:308-310 | saving the old title, description and due date again restores the list |
| TaskHandlers.SetSubTaskComplete | codigo/public/assets/js/tarefas/tarefa.js:339-356 | only `subTasks[j].complete` of the target task becomes the checkbox state; sibling subtasks, other fields and other tasks are unchanged; a PUT of the changed task to `/tasks/<its id>` is sent; a missing task or subtask position changes nothing and sends nothing |
| TaskHandlers.SetSubTaskCompleteUndo | codigo/public/assets/js/tarefas/tarefa.js:349 | setting the subtask back to its old state restores the list |
| TaskHandlers.ReplaceAt | codigo/public/assets/js/tarefas/tarefa.js:190 | the server's copy takes the handler's position; every other record is unchanged |
| TaskHandlers.EchoedReplyKeepsList | codigo/public/assets/js/tarefas/tarefa.js:188-190 | a server that answers with the record it was sent leaves the list exactly as the handler left it |
| Rest.ItemUrl | codigo/public/assets/js/tarefas/tarefa.js:173 | `${apiUrl}/${id}` is the collection path, a '/', then the id, with nothing else |
| Rest.ItemIdOfItemUrl | codigo/public/assets/js/tarefas/tarefa.js:173 | the record id can be read back from `${apiUrl}/${id}`, and only such a URL yields that id |
| Discussions.PageRangeOf | codigo/public/assets/js/forum/api/discussions.js:26-29 | the bounds the source computes: `_end` is `_start` + 4, and page 1 starts at offset 0 |
| Discussions.ConsecutivePages | codigo/public/assets/js/forum/api/discussions.js:28-29 | read as inclusive ranges, each page's `_start` is one after the previous page's `_end` |
| Discussions.OffsetOnOnePage | codigo/public/assets/js/forum/api/discussions.js:26-29 | read as the inclusive range the source computes, every offset from 0 on lies on page n / 5 + 1 and on no other page |
| Discussions.SkippedOffset | codigo/public/assets/js/forum/api/discussions.js:29 | with JSON Server's exclusive `_end`, offset 5k + 4 is served on no page, while offset 5k + 3 is still on page k + 1 |
| Discussions.IntendedPageRangeOf | codigo/public/assets/js/forum/api/discussions.js:29 | the corrected bounds: `_end` is `_start` + 5, and page 1 starts at offset 0 |
| Discussions.IntendedOffsetOnOnePage | codigo/public/assets/js/forum/api/discussions.js:26-29 | with the corrected bounds and an exclusive `_end`, every offset from 0 on is served on page n / 5 + 1 and on no other page |
| Discussions.IntendedListUrlServesPage | codigo/public/assets/js/forum/api/discussions.js:31 | the corrected listing URL reads back to a range that the server answers with exactly the offsets of its page, and it excludes the current user |
| Discussions.ListUrl | codigo/public/assets/js/forum/api/discussions.js:24-31 | the listing URL of a page; Discussions.ListUrlRoundTrip reads its bounds and author back |
| Discussions.ListUrlRoundTrip | codigo/public/assets/js/forum/api/discussions.js:31 | for a user id without '&', the listing URL split at '&' gives exactly the page's start and end bounds and the current user id |
| Discussions.ListUrlWithAmpersandInId | codigo/public/assets/js/forum/api/discussions.js:31 | the user id is not encoded: for an id `a&b` with no '&' in `a`, the `authorId_ne` parameter reads back as `a` only |
| Discussions.ListUrlExample | codigo/public/assets/js/forum/api/discussions.js:31 | page 2 for user "7" is `/discussions?_start=5&_end=9&authorId_ne=7` |
| Discussions.CreateDiscussion | codigo/public/assets/js/forum/api/discussions.js:3-5 | a create is a POST of the discussion to the bare collection path `/discussions` |
| Discussions.CreateUsesListedCollection | codigo/public/assets/js/forum/api/discussions.js:1-5 | the create path equals the part of every listing URL before its '?' |
| Discussions.UpdateDiscussion | codigo/public/assets/js/forum/api/discussions.js:46 | the update URL is the literal `%{apiUrl}/` followed by the id; it never starts with `/discussions` and never names the discussion's record |
| Discussions.UpdateUrlExample | codigo/public/assets/js/forum/api/discussions.js:46 | the update of discussion "3" goes to `%{apiUrl}/3`, not to `/discussions/3` |
| Discussions.IntendedUpdateDiscussion | codigo/public/assets/js/forum/api/discussions.js:46 | the corrected update URL names the discussion's record under `/discussions` |
| Home.CurrentDate | codigo/public/assets/js/home/home.js:9-13 | the dashboard's date string; Home.CurrentDateIsFormatDate and Home.CurrentDateRoundTrip state what it writes |
| Home.CurrentDateShape | codigo/public/assets/js/home/home.js:9-13 | for a valid date with a four-digit year the string is `YYYY-MM-DD`: month (one-based) and day are two digits |
| Home.CurrentDateIsFormatDate | codigo/public/assets/js/home/home.js:9-13 | the dashboard's date string equals the task page's `formatDate` of the same date |
| Home.CurrentDateRoundTrip | codigo/public/assets/js/home/home.js:9-13 | for a year that is not negative, the date string reads back as year, zero-based month and day |
| Home.CountFrom | codigo/public/assets/js/home/home.js:32-34 | the `reduce` from running count c ends at c plus the number of completed tasks |
| Home.CountCompletedTasks | codigo/public/assets/js/home/home.js:31-35 | the count is the number of tasks whose `complete` is true; it is 0 for an empty list, never exceeds the length, and equals it iff every task is complete |
| Home.DailyTotal | codigo/public/assets/js/home/home.js:20 | `TD`, the number of tasks dated today; Home.DailyWithinTotal bounds it by the list length |
| Home.DailyDone | codigo/public/assets/js/home/home.js:21 | `FD`, the number of completed tasks dated today; Home.DailyWithinTotal bounds it by `TD` and by the overall done count |
| Home.DailyChart | codigo/public/assets/js/home/home.js:51 | chart 1's first slice is the number of completed tasks dated today (FD) and its second the number of open tasks dated today; both are non-negative and add up to today's total, which is at most the list length |
| Home.TotalChart | codigo/public/assets/js/home/home.js:68 | chart 2's first slice is the number of completed tasks and its second the number of open tasks; both are non-negative and add up to the list length |
| Home.DailyWithinTotal | codigo/public/assets/js/home/home.js:20-21 | today's done count is at most today's total and at most the overall done count, and today's pending slice is at most the overall pending slice |

## Left out

- HTTP, JSON parsing, `.then`/`.catch` chains and logging are not modelled. A handler is modelled up to the PUT it would send, and the server's answer enters only through `ReplaceAt`.
- `readTasks`/`processData`, the delete flow and the create-task flow are not modelled. Each only issues a request and reloads the whole list; the "deleted task disappears after reload" behaviour depends on the server.
- `deleteDiscussion` is not modelled: it calls `fetch()` with no arguments and does nothing else.
- DOM construction, card markup, modals, event-listener binding, the collapse animation (jQuery `outerHeight`) and Chart.js rendering are not modelled. They are UI and foreign libraries. Two consequences: a card's label exists only for open tasks; and the card template never renders `.subtask-complete` checkboxes, so the subtask handler is modelled as the function it is even though the page never binds it.
- JavaScript `Date` parsing, time zones and calendar arithmetic are abstracted to day numbers. `new Date('YYYY-MM-DD')` is UTC midnight, `setHours` truncates to local midnight, and line 106 compares an untruncated term. The conversion between a day number and its year, month and day is not modelled. So `formatDate(task.term)` is modelled on the `Date` fields, not on a task's day number.
- The edit form's due date is a `YYYY-MM-DD` string in the source; the model writes it as a day number.
- Invalid dates (`NaN` getters), priority strings outside alta/media/baixa (a `NaN` comparator), a missing `subTasks` array (a `TypeError`) and leading white space skipped by `parseInt` are not modelled.
- Overlapping PUTs are not modelled: last write wins by completion order, and a response can land on a list re-sorted by another render. This is asynchronous concurrency.
- TaskHandlers.ReplaceAt: requires the position to be in range. An out-of-range write would grow the JavaScript array with holes, which can only happen after a concurrent reload, and concurrency is not modelled.
- Discussions.ListUrlRoundTrip: requires a user id without '&'. The source writes the id into the query unencoded, so an id with '&' cannot be read back; Discussions.ListUrlWithAmpersandInId states what is read instead.
- JSON Server itself is not modelled. Only its slicing rule, with `_end` exclusive, enters the model, as `Discussions.Served`.
- Numbers are unbounded integers. JavaScript numbers are doubles: `String(n)` switches to exponent form from 10^21 on, and `parseInt` loses integer precision above 2^53. Every number the source converts to or from text stays far below 2^53: a `getFullYear` value is at most 275760 in magnitude, and months, days and page offsets are small. So the round trips in `Text` are stated for the model's integers only.
- The dashboard fetches the task list three times, and a chart can be drawn before the daily figures arrive. The model computes every figure from one shared list. It also compares `task.date`, not `term`, as the source does.

## Findings

| source | as written | input that shows it | evidently intended | confidence | as-written member | corrected member |
|---|---|---|---|---|---|---|
| codigo/public/assets/js/tarefas/tarefa.js:156 | `today === term` compares two distinct `Date` objects by identity, so it is never true | a task due today: label "Venceu" | "Vence hoje" when the due date is today | high; not executed | TaskView.DueTodayDiscrepancy | TaskView.IntendedRemainingLabelMeaning |
| codigo/public/assets/js/forum/api/discussions.js:46 | the template `%{apiUrl}/${discussionId}` writes `%` instead of `$`, so the collection path is not interpolated | discussion id "3": URL `%{apiUrl}/3` | `/discussions/3` | high; not executed | Discussions.UpdateDiscussion | Discussions.IntendedUpdateDiscussion |
| codigo/public/assets/js/forum/api/discussions.js:29 | `end = pageNumber * discussionsPerPage - 1` treats `_end` as inclusive, but JSON Server's `_end` is exclusive | page 1 asks for `_start=0&_end=4`, which the server answers with offsets 0 to 3; offset 4 is on no page | `end = pageNumber * discussionsPerPage`, five discussions per page with no gaps | medium (depends on the backend's documented `_end`); not executed | Discussions.SkippedOffset | Discussions.IntendedOffsetOnOnePage |

=== FILE: calendar.dfy ===
/**
  Dates. The source keeps a task's due date (`term`) as a `YYYY-MM-DD` string and compares
  JavaScript `Date` objects truncated to local midnight; here such a date is a day number,
  and "today" is a parameter. Where the source formats a `Date`, the model takes the three
  fields the formatting reads.
 */
module Calendar {

  /** The fields `getFullYear()`, `getMonth()` (zero-based) and `getDate()` of a `Date`. */
  datatype CivilDate = CivilDate(year: int, month: nat, day: nat)

  /** The ranges `getMonth()` and `getDate()` return for a valid `Date`. */
  predicate ValidCivil(d: CivilDate) {
    d.month < 12 && 1 <= d.day <= 31
  }
}

=== FILE: discussions.dfy ===
/**
  The forum's discussion requests (forum/api/discussions.js): creating a discussion, listing
  one page of the discussions of other authors, and updating a discussion.
 */
module Discussions {
  import opened Wrappers
  import opened Text
  import opened Rest

  const ApiUrl := "/discussions"
  const DiscussionsPerPage := 5

  /** The `_start` and `_end` values of a listing request. */
  datatype PageRange = PageRange(start: int, end: int)

  /**
    `start = (pageNumber - 1) * discussionsPerPage`, `end = pageNumber * discussionsPerPage - 1`:
    the source computes the bounds as if both were inclusive.
   */
  function PageRangeOf(page: int): (r: PageRange)
    ensures r.end == r.start + DiscussionsPerPage - 1
    ensures page == 1 ==> r.start == 0
  {
    PageRange((page - 1) * DiscussionsPerPage, page * DiscussionsPerPage - 1)
  }

  /** Read as inclusive ranges, the source's bounds are consecutive: each page starts one after the previous page's end. */
  lemma ConsecutivePages(page: int)
    ensures PageRangeOf(page + 1).start == PageRangeOf(page).end + 1
  {
  }

  /** Read as an inclusive range `start..end`, the source's bounds put every offset from 0 on on exactly one page, page `n / 5 + 1`. */
  lemma OffsetOnOnePage(n: nat, page: int)
    ensures PageRangeOf(n / DiscussionsPerPage + 1).start <= n <= PageRangeOf(n / DiscussionsPerPage + 1).end
    ensures PageRangeOf(page).start <= n <= PageRangeOf(page).end ==> page == n / DiscussionsPerPage + 1
  {
    var q := n / DiscussionsPerPage;
    assert n == 5 * q + n % 5;
  }

  /**
    Whether offset `n` is in the answer to a request for `r`. JSON Server, the backend the
    client talks to, slices the collection like `Array.prototype.slice`: `_end` is exclusive.
   */
  predicate Served(r: PageRange, n: int) {
    r.start <= n < r.end
  }

  /**
    With the source's bounds, the server's exclusive `_end` leaves out the last offset of every
    page: offsets 4, 9, 14, ... are on no page, and a page holds four discussions, not five.
   */
  lemma SkippedOffset(k: nat, page: int)
    ensures !Served(PageRangeOf(page), DiscussionsPerPage * k + 4)
    ensures Served(PageRangeOf(k + 1), DiscussionsPerPage * k + 3)
  {
  }

  /** The bounds as evidently intended for an exclusive `_end`: `end = pageNumber * discussionsPerPage`. */
  function IntendedPageRangeOf(page: int): (r: PageRange)
    ensures r.end == r.start + DiscussionsPerPage
    ensures page == 1 ==> r.start == 0
  {
    PageRange((page - 1) * DiscussionsPerPage, page * DiscussionsPerPage)
  }

  /** With the intended bounds the server answers every offset from 0 on on exactly one page, page `n / 5 + 1`. */
  lemma IntendedOffsetOnOnePage(n: nat, page: int)
    ensures Served(IntendedPageRangeOf(n / DiscussionsPerPage + 1), n)
    ensures Served(IntendedPageRangeOf(page), n) ==> page == n / DiscussionsPerPage + 1
  {
    var q := n / DiscussionsPerPage;
    assert n == 5 * q + n % 5;
  }

  /** `?_start=${start}&_end=${end}&authorId_ne=${currentUserId}` under the collection path, for the range `r`. */
  function ListUrlOf(r: PageRange, currentUserId: string): string {
    ApiUrl + "?_start=" + IntToString(r.start) + "&_end=" + IntToString(r.end) + "&authorId_ne=" + currentUserId
  }

  /** `getDiscussions`: the listing URL of page `page`, with the bounds the source computes. */
  function ListUrl(page: int, currentUserId: string): string {
    ListUrlOf(PageRangeOf(page), currentUserId)
  }

  /** What a listing URL asks for: an offset range and the author whose discussions are excluded. */
  datatype PageQuery = PageQuery(start: int, end: int, excludedAuthor: string)

  /** Reads the three fields of a listing URL's query, split at '&'; anything after a third '&' is a further parameter. */
  function ParseListUrl(url: string): Option<PageQuery> {
    match StripPrefix(ApiUrl + "?_start=", url)
    case None => None
    case Some(query) =>
      var fields := Split(query, '&');
      if |fields| < 3 then None
      else
        var start := ParseInt(fields[0]);
        var endText := StripPrefix("_end=", fields[1]);
        var author := StripPrefix("authorId_ne=", fields[2]);
        if start.None? || endText.None? || author.None? then None
        else
          var end := ParseInt(endText.value);
          if end.None? then None else Some(PageQuery(start.value, end.value, author.value))
  }

  /** The fields of a listing query, split at '&': the start, the end field, then the pieces of the author field. */
  lemma ListQueryFields(s: string, e: string, author: string)
    requires '&' !in s && '&' !in e
    ensures var fields := Split(s + "&_end=" + e + "&authorId_ne=" + author, '&');
      |fields| >= 3 && fields[0] == s && fields[1] == "_end=" + e
      && fields[2..] == Split("authorId_ne=" + author, '&')
  {
    var endField, authorField := "_end=" + e, "authorId_ne=" + author;
    assert '&' !in endField;
    assert "&_end=" == ['&'] + "_end=";
    assert "&authorId_ne=" == ['&'] + "authorId_ne=";
    assert s + "&_end=" + e + "&authorId_ne=" + author == s + ['&'] + (endField + ['&'] + authorField);
    ThreeFields(s, endField, authorField);
  }

  /** Splitting at '&' when the first two fields hold no '&': those two, then the pieces of the third. */
  lemma ThreeFields(a: string, b: string, c: string)
    requires '&' !in a && '&' !in b
    ensures var fields := Split(a + ['&'] + (b + ['&'] + c), '&');
      |fields| >= 3 && fields[0] == a && fields[1] == b && fields[2..] == Split(c, '&')
  {
    SplitAtFirst(a, '&', b + ['&'] + c);
    SplitAtFirst(b, '&', c);
    var fields := Split(a + ['&'] + (b + ['&'] + c), '&');
    assert fields == [a] + ([b] + Split(c, '&'));
  }

  /** The author field of a listing query: the whole id when it holds no '&', else the id up to its first '&'. */
  lemma AuthorField(author: string)
    ensures '&' !in author ==> Split("authorId_ne=" + author, '&')[0] == "authorId_ne=" + author
    ensures forall a, b :: author == a + "&" + b && '&' !in a ==> Split("authorId_ne=" + author, '&')[0] == "authorId_ne=" + a
  {
    if '&' !in author {
      SplitWithoutSeparator("authorId_ne=" + author, '&');
    }
    forall a, b | author == a + "&" + b && '&' !in a
      ensures Split("authorId_ne=" + author, '&')[0] == "authorId_ne=" + a
    {
      assert "authorId_ne=" + author == ("authorId_ne=" + a) + ['&'] + b;
      SplitAtFirst("authorId_ne=" + a, '&', b);
    }
  }

  /** Parsing a listing URL assembled from two written integers and an author id without '&'. */
  lemma ParseAssembledListUrl(start: int, end: int, author: string)
    requires '&' !in author
    ensures ParseListUrl((ApiUrl + "?_start=") + (IntToString(start) + "&_end=" + IntToString(end) + "&authorId_ne=" + author))
         == Some(PageQuery(start, end, author))
  {
    var s, e := IntToString(start), IntToString(end);
    var query := s + "&_end=" + e + "&authorId_ne=" + author;
    StripPrefixOfConcat(ApiUrl + "?_start=", query);
    ListQueryFields(s, e, author);
    AuthorField(author);
    StripPrefixOfConcat("_end=", e);
    StripPrefixOfConcat("authorId_ne=", author);
    ParseIntOfIntToString(start);
    ParseIntOfIntToString(end);
  }

  /**
    A listing URL carries exactly the bounds of its range and excludes exactly the current user,
    for a user id without '&'.
   */
  lemma ListUrlOfRoundTrip(r: PageRange, currentUserId: string)
    requires '&' !in currentUserId
    ensures ParseListUrl(ListUrlOf(r, currentUserId)) == Some(PageQuery(r.start, r.end, currentUserId))
  {
    var s, e := IntToString(r.start), IntToString(r.end);
    assert ListUrlOf(r, currentUserId) == (ApiUrl + "?_start=") + (s + "&_end=" + e + "&authorId_ne=" + currentUserId);
    ParseAssembledListUrl(r.start, r.end, currentUserId);
  }

  /** The listing URL of a page carries the source's bounds for that page and excludes exactly the current user. */
  lemma ListUrlRoundTrip(page: int, currentUserId: string)
    requires '&' !in currentUserId
    ensures ParseListUrl(ListUrl(page, currentUserId))
         == Some(PageQuery(PageRangeOf(page).start, PageRangeOf(page).end, currentUserId))
  {
    ListUrlOfRoundTrip(PageRangeOf(page), currentUserId);
  }

  /**
    The source writes the user id into the query without encoding it: an id holding '&' ends
    the `authorId_ne` parameter at its first '&', and the rest becomes further parameters.
   */
  lemma ListUrlWithAmpersandInId(page: int, a: string, b: string)
    requires '&' !in a
    ensures ParseListUrl(ListUrl(page, a + "&" + b))
         == Some(PageQuery(PageRangeOf(page).start, PageRangeOf(page).end, a))
  {
    var r := PageRangeOf(page);
    var id := a + "&" + b;
    var s, e := IntToString(r.start), IntToString(r.end);
    var query := s + "&_end=" + e + "&authorId_ne=" + id;
    assert ListUrl(page, id) == (ApiUrl + "?_start=") + query;
    StripPrefixOfConcat(ApiUrl + "?_start=", query);
    ListQueryFields(s, e, id);
    AuthorField(id);
    StripPrefixOfConcat("_end=", e);
    StripPrefixOfConcat("authorId_ne=", a);
    ParseIntOfIntToString(r.start);
    ParseIntOfIntToString(r.end);
  }

  /** The listing URL as evidently intended: the bounds of `IntendedPageRangeOf`. */
  function IntendedListUrl(page: int, currentUserId: string): string {
    ListUrlOf(IntendedPageRangeOf(page), currentUserId)
  }

  /**
    The intended listing URL asks the server for exactly the offsets of its page: an offset
    `n` from 0 on is served for page `page` iff `page == n / 5 + 1`.
   */
  lemma IntendedListUrlServesPage(page: int, currentUserId: string, n: nat)
    requires '&' !in currentUserId
    ensures ParseListUrl(IntendedListUrl(page, currentUserId)).Some?
    ensures var q := ParseListUrl(IntendedListUrl(page, currentUserId)).value;
      q.excludedAuthor == currentUserId
      && (Served(PageRange(q.start, q.end), n) <==> page == n / DiscussionsPerPage + 1)
  {
    ListUrlOfRoundTrip(IntendedPageRangeOf(page), currentUserId);
    IntendedOffsetOnOnePage(n, page);
  }

  /** The listing URL of page 2 for user "7". */
  lemma ListUrlExample()
    ensures ListUrl(2, "7") == "/discussions?_start=5&_end=9&authorId_ne=7"
  {
  }

  /** `createDiscussion`: POST of the discussion to the bare collection path. */
  function CreateDiscussion<D>(discussion: D): (r: Request<D>)
    ensures r.verb == Post && r.body == Some(discussion)
    ensures r.url == ApiUrl && '?' !in r.url
  {
    Request(Post, ApiUrl, Some(discussion))
  }

  /** Discussions are created at the same path the listing queries: the part of a listing URL before its '?'. */
  lemma CreateUsesListedCollection<D>(discussion: D, page: int, currentUserId: string)
    ensures Split(ListUrl(page, currentUserId), '?')[0] == CreateDiscussion(discussion).url
  {
    var r := PageRangeOf(page);
    var rest := "_start=" + IntToString(r.start) + "&_end=" + IntToString(r.end) + "&authorId_ne=" + currentUserId;
    assert ListUrl(page, currentUserId) == ApiUrl + ['?'] + rest;
    SplitAtFirst(ApiUrl, '?', rest);
  }

  /** The path the source writes for an update: the literal text `%{apiUrl}/` and the id. */
  const UpdatePathAsWritten := "%{apiUrl}/"

  /**
    `updateDiscussion`: PUT to `%{apiUrl}/${discussionId}`. The first placeholder is written
    with '%' instead of '$', so it is not interpolated: the URL never starts with the
    collection path and never names the discussion's record.
   */
  function UpdateDiscussion<D>(discussionId: string, data: D): (r: Request<D>)
    ensures r.verb == Put && r.body == Some(data)
    ensures StripPrefix(ApiUrl, r.url) == None
    ensures ItemId(ApiUrl, r.url) == None && r.url != ItemUrl(ApiUrl, discussionId)
    ensures StripPrefix(UpdatePathAsWritten, r.url) == Some(discussionId)
  {
    StripPrefixOfConcat(UpdatePathAsWritten, discussionId);
    assert (UpdatePathAsWritten + discussionId)[0] == '%';
    Request(Put, UpdatePathAsWritten + discussionId, Some(data))
  }

  /** The update of discussion "3" goes to the literal path `%{apiUrl}/3`, not to `/discussions/3`. */
  lemma UpdateUrlExample<D>(data: D)
    ensures UpdateDiscussion("3", data).url == "%{apiUrl}/3"
    ensures UpdateDiscussion("3", data).url != "/discussions/3"
  {
  }

  /** The update as evidently intended: PUT to `${apiUrl}/${discussionId}`, the discussion's record URL. */
  function IntendedUpdateDiscussion<D>(discussionId: string, data: D): (r: Request<D>)
    ensures r.verb == Put && r.body == Some(data)
    ensures ItemId(ApiUrl, r.url) == Some(discussionId)
    ensures StripPrefix(ApiUrl, r.url).Some?
  {
    ItemIdOfItemUrl(ApiUrl, discussionId, ItemUrl(ApiUrl, discussionId));
    Request(Put, ItemUrl(ApiUrl, discussionId), Some(data))
  }
}

=== FILE: home.dfy ===
/**
  The dashboard counters (home/home.js): the current date string, the number of completed
  tasks, and the done-versus-pending figures of the two charts. The source fetches the task
  list three times; the model reads one shared list.
 */
module Home {
  import opened Wrappers
  import opened Seqs
  import opened Text
  import opened Calendar
  import opened Tasks
  import opened TaskView

  /**
    `CurrentDate`: the year, the one-based month and the day of today's `Date`, the month and
    the day padded to two characters with `padStart(2, '0')`, joined by '-'.
   */
  function CurrentDate(d: CivilDate): string {
    IntToString(d.year) + "-" + PadStart(NatToString(d.month + 1), 2, '0') + "-" + PadStart(NatToString(d.day), 2, '0')
  }

  /** A numeral padded to two characters, for a number below 100, is two digits. */
  lemma PaddedTwoDigits(n: nat)
    requires n <= 99
    ensures |PadStart(NatToString(n), 2, '0')| == 2 && AllDigits(PadStart(NatToString(n), 2, '0'))
  {
    var d := NatToString(n);
    var p := PadStart(d, 2, '0');
    TwoDigitNumeral(n);
    forall i | 0 <= i < 2
      ensures IsDigit(p[i])
    {
      if i >= 2 - |d| {
        assert p[i] == p[2 - |d|..][i - (2 - |d|)];
      }
    }
  }

  /** Year, month and day strings of the right lengths form a `YYYY-MM-DD` string. */
  lemma IsoFromPieces(year: string, month: string, day: string)
    requires |year| == 4 && |month| == 2 && |day| == 2
    requires AllDigits(year) && AllDigits(month) && AllDigits(day)
    ensures IsoDateShape(year + "-" + month + "-" + day)
  {
    var s := year + "-" + month + "-" + day;
    assert forall i :: 0 <= i < 4 ==> s[i] == year[i];
    assert forall i :: 5 <= i < 7 ==> s[i] == month[i - 5];
    assert forall i :: 8 <= i < 10 ==> s[i] == day[i - 8];
  }

  /** For a valid date of a four-digit year the string has the `YYYY-MM-DD` shape that `task.date` is compared with. */
  lemma CurrentDateShape(d: CivilDate)
    requires ValidCivil(d) && 1000 <= d.year <= 9999
    ensures IsoDateShape(CurrentDate(d))
  {
    var year, month, day := IntToString(d.year), PadStart(NatToString(d.month + 1), 2, '0'), PadStart(NatToString(d.day), 2, '0');
    assert year == NatToString(d.year);
    FourDigitNumeral(d.year);
    PaddedTwoDigits(d.month + 1);
    PaddedTwoDigits(d.day);
    IsoFromPieces(year, month, day);
    assert CurrentDate(d) == year + "-" + month + "-" + day;
  }

  /** The dashboard writes today's date exactly as the task page's `formatDate` writes a date. */
  lemma CurrentDateIsFormatDate(d: CivilDate)
    ensures CurrentDate(d) == FormatDate(d)
  {
    PadStartTwoIsPadTwo(NatToString(d.month + 1));
    PadStartTwoIsPadTwo(NatToString(d.day));
    JoinThree(IntToString(d.year), PadTwo(NatToString(d.month + 1)), PadTwo(NatToString(d.day)));
  }

  /** For a year that is not negative, the date string reads back as year, zero-based month and day. */
  lemma CurrentDateRoundTrip(d: CivilDate)
    requires d.year >= 0
    ensures ParseTerm(CurrentDate(d)) == TermFields(Some(d.year), Some(d.month), Some(d.day))
  {
    CurrentDateIsFormatDate(d);
    FormatDateRoundTrip(d);
  }

  /** `task.date === CurrentDate`. */
  function DueOn(current: string): Task -> bool {
    (t: Task) => t.date == Some(current)
  }

  /** `task.date === CurrentDate && task.complete`. */
  function DoneOn(current: string): Task -> bool {
    (t: Task) => t.date == Some(current) && t.complete
  }

  /** A task dated `current` that is still open. */
  function OpenOn(current: string): Task -> bool {
    (t: Task) => t.date == Some(current) && !t.complete
  }

  const IsComplete: Task -> bool := (t: Task) => t.complete
  const IsOpen: Task -> bool := (t: Task) => !t.complete

  /** `TD`: the number of tasks dated today. */
  function DailyTotal(tasks: seq<Task>, current: string): nat {
    |Filter(tasks, DueOn(current))|
  }

  /** `FD`: the number of completed tasks dated today. */
  function DailyDone(tasks: seq<Task>, current: string): nat {
    |Filter(tasks, DoneOn(current))|
  }

  /** The `reduce` of `countCompletedTasks` from running count `count`: adds the number of completed tasks. */
  function CountFrom(tasks: seq<Task>, count: nat): (n: nat)
    ensures n == count + |Filter(tasks, IsComplete)|
    decreases |tasks|
  {
    if |tasks| == 0 then count
    else CountFrom(tasks[1..], if tasks[0].complete then count + 1 else count)
  }

  /**
    `countCompletedTasks(tasks)`: the number of tasks whose `complete` is true. It is 0 for
    an empty list, never more than the length, and equals the length exactly when every task
    is complete.
   */
  function CountCompletedTasks(tasks: seq<Task>): (n: nat)
    ensures n == |Filter(tasks, IsComplete)|
    ensures n <= |tasks|
    ensures |tasks| == 0 ==> n == 0
    ensures n == |tasks| <==> forall i :: 0 <= i < |tasks| ==> tasks[i].complete
  {
    FilterKeepsAllIff(tasks, IsComplete);
    CountFrom(tasks, 0)
  }

  /**
    Chart 1: `[FeitasDiarias, TotaisDiarias - FeitasDiarias]`, done and pending among today's
    tasks. The first slice counts today's completed tasks, the second today's open tasks.
   */
  function DailyChart(tasks: seq<Task>, current: string): (data: seq<int>)
    ensures |data| == 2 && 0 <= data[0] && 0 <= data[1]
    ensures data[0] == |Filter(tasks, DoneOn(current))|
    ensures data[1] == |Filter(tasks, OpenOn(current))|
    ensures data[0] + data[1] == DailyTotal(tasks, current) <= |tasks|
  {
    FilterCountMono(tasks, DoneOn(current), DueOn(current));
    FilterSplit(tasks, DueOn(current), DoneOn(current), OpenOn(current));
    [DailyDone(tasks, current), DailyTotal(tasks, current) - DailyDone(tasks, current)]
  }

  /**
    Chart 2: `[TarefasTotaisFeitas, TotaldeTarefas - TarefasTotaisFeitas]`, done and pending
    among all tasks. The first slice counts the completed tasks, the second the open ones.
   */
  function TotalChart(tasks: seq<Task>): (data: seq<int>)
    ensures |data| == 2 && 0 <= data[0] && 0 <= data[1]
    ensures data[0] == |Filter(tasks, IsComplete)|
    ensures data[1] == |Filter(tasks, IsOpen)|
    ensures data[0] + data[1] == |tasks|
  {
    FilterComplement(tasks, IsComplete, IsOpen);
    var done := CountCompletedTasks(tasks);
    [done, |tasks| - done]
  }

  /**
    Over one list, today's figures are bounded by the overall ones: today's done count is at
    most today's total and at most the overall done count, and today's pending slice is at most
    the overall pending slice.
   */
  lemma DailyWithinTotal(tasks: seq<Task>, current: string)
    ensures DailyDone(tasks, current) <= DailyTotal(tasks, current) <= |tasks|
    ensures DailyDone(tasks, current) <= CountCompletedTasks(tasks)
    ensures DailyChart(tasks, current)[1] <= TotalChart(tasks)[1]
  {
    FilterCountMono(tasks, DoneOn(current), DueOn(current));
    FilterCountMono(tasks, DoneOn(current), IsComplete);
    FilterInclusionExclusion(tasks, DueOn(current), IsComplete, DoneOn(current));
  }
}

=== FILE: rest.dfy ===
/** The HTTP requests the client issues, as data; sending them and reading the responses is not modelled. */
module Rest {
  import opened Wrappers

  datatype Verb = Get | Post | Put | Delete

  /** A request the client sends: its verb, its URL and the record serialised into its JSON body, if any. */
  datatype Request<B> = Request(verb: Verb, url: string, body: Option<B>)

  /** `${apiUrl}/${id}`: the URL of one record of a collection. */
  function ItemUrl(collection: string, id: string): (url: string)
    ensures |url| == |collection| + 1 + |id|
    ensures url[..|collection|] == collection && url[|collection|] == '/'
    ensures url[|collection| + 1..] == id
  {
    collection + "/" + id
  }

  /** The record id named by a URL of `collection`, if the URL is one. */
  function ItemId(collection: string, url: string): Option<string> {
    if |url| > |collection| && url[..|collection|] == collection && url[|collection|] == '/'
    then Some(url[|collection| + 1..])
    else None
  }

  /** The id can be read back from every record URL, and only from URLs under the collection. */
  lemma ItemIdOfItemUrl(collection: string, id: string, url: string)
    ensures ItemId(collection, ItemUrl(collection, id)) == Some(id)
    ensures ItemId(collection, url) == Some(id) ==> url == ItemUrl(collection, id)
  {
    if ItemId(collection, url) == Some(id) {
      assert url == url[..|collection|] + [url[|collection|]] + url[|collection| + 1..];
    }
  }
}

=== FILE: seqs.dfy ===
/**
  Sequence helpers for the JavaScript array methods the source relies on:
  `Array.prototype.filter` and `Array.prototype.findIndex`.
 */
module Seqs {

  /** The elements of `s` that satisfy `keep`, in their original order. */
  function Filter<T>(s: seq<T>, keep: T -> bool): (r: seq<T>)
    ensures |r| <= |s|
    decreases |s|
  {
    if |s| == 0 then []
    else (if keep(s[0]) then [s[0]] else []) + Filter(s[1..], keep)
  }

  /** Filtering distributes over concatenation. */
  lemma {:induction false} FilterConcat<T>(a: seq<T>, b: seq<T>, keep: T -> bool)
    ensures Filter(a + b, keep) == Filter(a, keep) + Filter(b, keep)
    decreases |a|
  {
    if |a| == 0 {
      assert a + b == b;
    } else {
      var head := if keep(a[0]) then [a[0]] else [];
      assert (a + b)[0] == a[0];
      assert (a + b)[1..] == a[1..] + b;
      assert Filter(a + b, keep) == head + Filter(a[1..] + b, keep);
      FilterConcat(a[1..], b, keep);
      assert Filter(a, keep) == head + Filter(a[1..], keep);
    }
  }

  /** Filtering a sequence extended by one element. */
  lemma FilterSnoc<T>(a: seq<T>, x: T, keep: T -> bool)
    ensures Filter(a + [x], keep) == Filter(a, keep) + (if keep(x) then [x] else [])
  {
    FilterConcat(a, [x], keep);
    assert [x][1..] == [];
  }

  /** A filter that every element passes keeps the sequence whole. */
  lemma {:induction false} FilterKeepsAll<T>(s: seq<T>, keep: T -> bool)
    requires forall i :: 0 <= i < |s| ==> keep(s[i])
    ensures Filter(s, keep) == s
    decreases |s|
  {
    if |s| > 0 {
      FilterKeepsAll(s[1..], keep);
    }
  }

  /** A filter that no element passes yields the empty sequence. */
  lemma {:induction false} FilterDropsAll<T>(s: seq<T>, keep: T -> bool)
    requires forall i :: 0 <= i < |s| ==> !keep(s[i])
    ensures Filter(s, keep) == []
    decreases |s|
  {
    if |s| > 0 {
      FilterDropsAll(s[1..], keep);
    }
  }

  /** Every element that passes the filter is kept: membership is exactly `x in s && keep(x)`. */
  lemma {:induction false} FilterMembers<T>(s: seq<T>, keep: T -> bool, x: T)
    ensures x in Filter(s, keep) <==> x in s && keep(x)
    decreases |s|
  {
    if |s| > 0 {
      FilterMembers(s[1..], keep, x);
      assert s == [s[0]] + s[1..];
    }
  }

  /** A weaker filter keeps at least as many elements. */
  lemma {:induction false} FilterCountMono<T>(s: seq<T>, p: T -> bool, q: T -> bool)
    requires forall i :: 0 <= i < |s| ==> (p(s[i]) ==> q(s[i]))
    ensures |Filter(s, p)| <= |Filter(s, q)|
    decreases |s|
  {
    if |s| > 0 {
      FilterCountMono(s[1..], p, q);
    }
  }

  /** Inclusion and exclusion: what `p` keeps plus what `q` keeps is at most all of `s` plus what both keep. */
  lemma {:induction false} FilterInclusionExclusion<T>(s: seq<T>, p: T -> bool, q: T -> bool, both: T -> bool)
    requires forall i :: 0 <= i < |s| ==> (both(s[i]) <==> p(s[i]) && q(s[i]))
    ensures |Filter(s, p)| + |Filter(s, q)| <= |s| + |Filter(s, both)|
    decreases |s|
  {
    if |s| > 0 {
      FilterInclusionExclusion(s[1..], p, q, both);
    }
  }

  /** Splitting what `p` keeps by a second test: the part that passes it and the part that fails it add up. */
  lemma {:induction false} FilterSplit<T>(s: seq<T>, p: T -> bool, yes: T -> bool, no: T -> bool)
    requires forall i :: 0 <= i < |s| ==> (yes(s[i]) ==> p(s[i])) && (no(s[i]) ==> p(s[i]))
    requires forall i :: 0 <= i < |s| ==> (p(s[i]) ==> (yes(s[i]) <==> !no(s[i])))
    ensures |Filter(s, p)| == |Filter(s, yes)| + |Filter(s, no)|
    decreases |s|
  {
    if |s| > 0 {
      FilterSplit(s[1..], p, yes, no);
    }
  }

  /** A test and its complement together keep every element exactly once. */
  lemma {:induction false} FilterComplement<T>(s: seq<T>, yes: T -> bool, no: T -> bool)
    requires forall i :: 0 <= i < |s| ==> (yes(s[i]) <==> !no(s[i]))
    ensures |Filter(s, yes)| + |Filter(s, no)| == |s|
    decreases |s|
  {
    if |s| > 0 {
      FilterComplement(s[1..], yes, no);
    }
  }

  /** A filter keeps the whole sequence exactly when every element passes it. */
  lemma {:induction false} FilterKeepsAllIff<T>(s: seq<T>, keep: T -> bool)
    ensures |Filter(s, keep)| == |s| <==> forall i :: 0 <= i < |s| ==> keep(s[i])
    decreases |s|
  {
    if |s| > 0 {
      FilterKeepsAllIff(s[1..], keep);
      if forall i :: 0 <= i < |s| ==> keep(s[i]) {
        assert forall i :: 0 <= i < |s[1..]| ==> keep(s[1..][i]) by {
          forall i | 0 <= i < |s[1..]| ensures keep(s[1..][i]) { assert s[1..][i] == s[i + 1]; }
        }
      } else {
        var i :| 0 <= i < |s| && !keep(s[i]);
        if i > 0 {
          assert s[1..][i - 1] == s[i];
        }
      }
    }
  }

  /** `s.findIndex(p)` for a predicate that sees the element and its index: the first index whose element satisfies `p`, or -1. */
  function FindIndex<T>(s: seq<T>, p: (T, nat) -> bool): (r: int)
    ensures -1 <= r < |s|
    ensures r == -1 <==> forall i :: 0 <= i < |s| ==> !p(s[i], i)
    ensures r != -1 ==> p(s[r], r) && forall i :: 0 <= i < r ==> !p(s[i], i)
  {
    FindIndexFrom(s, p, 0)
  }

  /** The scan of `FindIndex` from position `from` onwards. */
  function FindIndexFrom<T>(s: seq<T>, p: (T, nat) -> bool, from: nat): (r: int)
    requires from <= |s|
    ensures -1 <= r < |s|
    ensures r == -1 <==> forall i :: from <= i < |s| ==> !p(s[i], i)
    ensures r != -1 ==> from <= r && p(s[r], r) && forall i :: from <= i < r ==> !p(s[i], i)
    decreases |s| - from
  {
    if from == |s| then -1
    else if p(s[from], from) then from
    else FindIndexFrom(s, p, from + 1)
  }
}

=== FILE: task_handlers.dfy ===
/**
  The local effect of the task list's event handlers (tarefa.js). Each handler finds its task
  by position, changes the page's task list, and sends the changed record in a PUT request;
  when the server answers, the record at that position is replaced by the server's copy.
 */
module TaskHandlers {
  import opened Wrappers
  import opened Seqs
  import opened Rest
  import opened Tasks
  import opened TaskView

  const TasksApi := "/tasks"

  /** A PUT the handler sends for the record at `index` of the task list. */
  datatype Pending = Pending(index: nat, request: Request<Task>)

  /** The task list after the handler's own change, and the PUT it sends, if it got that far. */
  datatype Handled = Handled(tasks: seq<Task>, sent: Option<Pending>)

  /**
    `tasks.findIndex((t, index) => index == taskId)`. The attribute `data-task-id` is read as
    the number it spells, so the lookup finds `id` itself when it is a position of the list.
   */
  function LookUp<T>(s: seq<T>, id: int): (k: int)
    ensures k == if 0 <= id < |s| then id else -1
  {
    var atId := (x: T, i: nat) => i == id;
    var k := FindIndex(s, atId);
    assert 0 <= id < |s| ==> atId(s[id], id);
    k
  }

  /** `PUT ${apiUrl}/${tasks[k].id}` with the record at position `k` as its body. */
  function PutAt(tasks: seq<Task>, k: nat): (p: Pending)
    requires k < |tasks|
    ensures p.index == k && p.request.verb == Put && p.request.body == Some(tasks[k])
    ensures ItemId(TasksApi, p.request.url) == Some(tasks[k].id)
  {
    ItemIdOfItemUrl(TasksApi, tasks[k].id, ItemUrl(TasksApi, tasks[k].id));
    Pending(k, Request(Put, ItemUrl(TasksApi, tasks[k].id), Some(tasks[k])))
  }

  /** The request a handler sends carries the record the handler left at that position. */
  predicate SendsOwnRecord(h: Handled) {
    h.sent.Some? ==> h.sent.value.index < |h.tasks| && h.sent.value.request.body == Some(h.tasks[h.sent.value.index])
  }

  /** `handleTaskCompleteButtonClick`: flips `complete` of the task at `id`; an unknown position changes nothing and sends nothing. */
  function ToggleComplete(tasks: seq<Task>, id: int): (h: Handled)
    ensures |h.tasks| == |tasks| && SendsOwnRecord(h)
    ensures !(0 <= id < |tasks|) ==> h == Handled(tasks, None)
    ensures 0 <= id < |tasks| ==>
      && h.tasks[id] == tasks[id].(complete := !tasks[id].complete)
      && (forall j :: 0 <= j < |tasks| && j != id ==> h.tasks[j] == tasks[j])
      && h.sent == Some(PutAt(h.tasks, id))
  {
    var k := LookUp(tasks, id);
    if k == -1 then Handled(tasks, None)
    else
      var changed := tasks[k := tasks[k].(complete := !tasks[k].complete)];
      Handled(changed, Some(PutAt(changed, k)))
  }

  /** `handlePriorityChange`: writes the chosen priority into the task at `id`, and nothing else. */
  function ChangePriority(tasks: seq<Task>, id: int, p: Priority): (h: Handled)
    ensures |h.tasks| == |tasks| && SendsOwnRecord(h)
    ensures !(0 <= id < |tasks|) ==> h == Handled(tasks, None)
    ensures 0 <= id < |tasks| ==>
      && h.tasks[id] == tasks[id].(priority := p)
      && (forall j :: 0 <= j < |tasks| && j != id ==> h.tasks[j] == tasks[j])
      && h.sent == Some(PutAt(h.tasks, id))
  {
    var k := LookUp(tasks, id);
    if k == -1 then Handled(tasks, None)
    else
      var changed := tasks[k := tasks[k].(priority := p)];
      Handled(changed, Some(PutAt(changed, k)))
  }

  /**
    `saveTask`: writes the edit form's title, description and due date into the task at `id`
    (found with `index === taskId`, the position the edit modal was opened for).
   */
  function SaveTask(tasks: seq<Task>, id: int, title: string, description: string, term: int): (h: Handled)
    ensures |h.tasks| == |tasks| && SendsOwnRecord(h)
    ensures !(0 <= id < |tasks|) ==> h == Handled(tasks, None)
    ensures 0 <= id < |tasks| ==>
      && h.tasks[id] == tasks[id].(title := title, description := description, term := term)
      && (forall j :: 0 <= j < |tasks| && j != id ==> h.tasks[j] == tasks[j])
      && h.sent == Some(PutAt(h.tasks, id))
  {
    var k := LookUp(tasks, id);
    if k == -1 then Handled(tasks, None)
    else
      var changed := tasks[k := tasks[k].(title := title, description := description, term := term)];
      Handled(changed, Some(PutAt(changed, k)))
  }

  /**
    `handleSubTaskCheckboxChange`: sets `complete` of subtask `subId` of the task at `id` to
    the checkbox state. An unknown task or subtask position changes nothing and sends nothing.
   */
  function SetSubTaskComplete(tasks: seq<Task>, id: int, subId: int, checked: bool): (h: Handled)
    ensures |h.tasks| == |tasks| && SendsOwnRecord(h)
    ensures !(0 <= id < |tasks| && 0 <= subId < |tasks[id].subTasks|) ==> h == Handled(tasks, None)
    ensures 0 <= id < |tasks| && 0 <= subId < |tasks[id].subTasks| ==>
      && |h.tasks[id].subTasks| == |tasks[id].subTasks|
      && h.tasks[id].subTasks[subId] == tasks[id].subTasks[subId].(complete := checked)
      && (forall j :: 0 <= j < |tasks[id].subTasks| && j != subId ==> h.tasks[id].subTasks[j] == tasks[id].subTasks[j])
      && h.tasks[id] == tasks[id].(subTasks := h.tasks[id].subTasks)
      && (forall j :: 0 <= j < |tasks| && j != id ==> h.tasks[j] == tasks[j])
      && h.sent == Some(PutAt(h.tasks, id))
  {
    var k := LookUp(tasks, id);
    if k == -1 then Handled(tasks, None)
    else
      var subs := tasks[k].subTasks;
      var n := LookUp(subs, subId);
      if n == -1 then Handled(tasks, None)
      else
        var changed := tasks[k := tasks[k].(subTasks := subs[n := subs[n].(complete := checked)])];
        Handled(changed, Some(PutAt(changed, k)))
  }

  /**
    `tasks[taskIndex] = updatedTask`: the server's copy of the record takes the place of the
    record at the position the request was sent for.
   */
  function ReplaceAt(tasks: seq<Task>, k: nat, updated: Task): (r: seq<Task>)
    requires k < |tasks|
    ensures |r| == |tasks| && r[k] == updated
    ensures forall j :: 0 <= j < |tasks| && j != k ==> r[j] == tasks[j]
  {
    tasks[k := updated]
  }

  /** A server that answers with the record it was sent leaves the list as the handler left it. */
  lemma EchoedReplyKeepsList(h: Handled)
    requires SendsOwnRecord(h) && h.sent.Some?
    ensures ReplaceAt(h.tasks, h.sent.value.index, h.sent.value.request.body.value) == h.tasks
  {
  }

  /** Flipping completion twice at the same position restores the list; an unknown position never changes it. */
  lemma ToggleCompleteTwice(tasks: seq<Task>, id: int)
    ensures ToggleComplete(ToggleComplete(tasks, id).tasks, id).tasks == tasks
  {
    var once := ToggleComplete(tasks, id).tasks;
    var twice := ToggleComplete(once, id).tasks;
    if 0 <= id < |tasks| {
      assert forall j :: 0 <= j < |tasks| ==> twice[j] == tasks[j];
    }
  }

  /**
    The toggled record belongs to the Done section exactly when it was open before. The card
    itself moves only when the page renders again after a successful PUT; with a server that
    echoes the record (EchoedReplyKeepsList) that render puts it there.
   */
  lemma ToggleCompleteMovesCard(tasks: seq<Task>, id: int, today: int)
    requires 0 <= id < |tasks|
    ensures SectionOf(ToggleComplete(tasks, id).tasks[id], today) == Done <==> !tasks[id].complete
  {
  }

  /** Choosing the old priority again restores the list. */
  lemma ChangePriorityUndo(tasks: seq<Task>, id: int, p: Priority)
    requires 0 <= id < |tasks|
    ensures ChangePriority(ChangePriority(tasks, id, p).tasks, id, tasks[id].priority).tasks == tasks
  {
    var back := ChangePriority(ChangePriority(tasks, id, p).tasks, id, tasks[id].priority).tasks;
    assert forall j :: 0 <= j < |tasks| ==> back[j] == tasks[j];
  }

  /**
    An open task that is not overdue, given priority `p`, belongs to section `Rank(p)`. As for
    the toggle, the card moves there only on the render that follows a successful PUT.
   */
  lemma ChangePriorityMovesCard(tasks: seq<Task>, id: int, p: Priority, today: int)
    requires 0 <= id < |tasks| && !tasks[id].complete && today <= tasks[id].term
    ensures SectionOf(ChangePriority(tasks, id, p).tasks[id], today) == Rank(p)
  {
  }

  /** Saving the old title, description and due date again restores the list. */
  lemma SaveTaskUndo(tasks: seq<Task>, id: int, title: string, description: string, term: int)
    requires 0 <= id < |tasks|
    ensures SaveTask(SaveTask(tasks, id, title, description, term).tasks, id,
                     tasks[id].title, tasks[id].description, tasks[id].term).tasks == tasks
  {
    var back := SaveTask(SaveTask(tasks, id, title, description, term).tasks, id,
                         tasks[id].title, tasks[id].description, tasks[id].term).tasks;
    assert forall j :: 0 <= j < |tasks| ==> back[j] == tasks[j];
  }

  /** Setting a subtask back to its old state restores the list. */
  lemma SetSubTaskCompleteUndo(tasks: seq<Task>, id: int, subId: int, checked: bool)
    requires 0 <= id < |tasks| && 0 <= subId < |tasks[id].subTasks|
    ensures SetSubTaskComplete(SetSubTaskComplete(tasks, id, subId, checked).tasks, id, subId,
                               tasks[id].subTasks[subId].complete).tasks == tasks
  {
    var once := SetSubTaskComplete(tasks, id, subId, checked).tasks;
    var back := SetSubTaskComplete(once, id, subId, tasks[id].subTasks[subId].complete).tasks;
    assert back[id].subTasks == tasks[id].subTasks;
    assert forall j :: 0 <= j < |tasks| ==> back[j] == tasks[j];
  }
}

=== FILE: task_view.dfy ===
/**
  Rendering of the task list (tarefa.js): the assignment of every task to one of the five
  sections of the page, the visibility of the sections, the remaining-time caption of a card,
  and the `YYYY-MM-DD` formatting of a due date for the edit form.
 */
module TaskView {
  import opened Wrappers
  import opened Seqs
  import opened Text
  import opened Calendar
  import opened Tasks

  /**
    The index of a `.priority-tasks-container` on the page: 0 holds overdue tasks, 1, 2 and 3
    the open tasks of rank 1, 2 and 3, and 4 the completed tasks.
   */
  type Section = k: nat | k < 5

  const Overdue: Section := 0
  const Done: Section := 4

  /**
    The section a task's card is appended to, `today` being the current day number. Every
    task goes to exactly one section: a completed one to Done, an open one due before today to
    Overdue, and any other to the section numbered by its priority rank.
   */
  function SectionOf(t: Task, today: int): (k: Section)
    ensures k == Done <==> t.complete
    ensures k == Overdue <==> !t.complete && t.term < today
    ensures Overdue < k < Done <==> !t.complete && today <= t.term
    ensures Overdue < k < Done ==> k == Rank(t.priority)
  {
    if t.complete then Done
    else if t.term < today then Overdue
    else Rank(t.priority)
  }

  /** The test "this task's card goes to section `k`", as one value for every use. */
  function InSection(k: Section, today: int): Task -> bool {
    (t: Task) => SectionOf(t, today) == k
  }

  /** The cards of section `k`, in list order. */
  function SectionCards(store: seq<Task>, k: Section, today: int): seq<Task> {
    Filter(store, InSection(k, today))
  }

  /** Appending a task to the list appends its card to its own section only. */
  lemma SectionCardsSnoc(store: seq<Task>, t: Task, k: Section, today: int)
    ensures SectionCards(store + [t], k, today)
         == SectionCards(store, k, today) + (if SectionOf(t, today) == k then [t] else [])
  {
    FilterSnoc(store, t, InSection(k, today));
  }

  /** Prepending a task to the list prepends its card to its own section only. */
  lemma SectionCardsCons(t: Task, store: seq<Task>, k: Section, today: int)
    ensures SectionCards([t] + store, k, today)
         == (if SectionOf(t, today) == k then [t] else []) + SectionCards(store, k, today)
  {
    assert ([t] + store)[0] == t;
    assert ([t] + store)[1..] == store;
  }

  /** A section has a card exactly when some task of the list belongs to it. */
  lemma SectionNonEmpty(store: seq<Task>, k: Section, today: int)
    ensures |SectionCards(store, k, today)| > 0 <==> exists j :: 0 <= j < |store| && SectionOf(store[j], today) == k
  {
    var cards := SectionCards(store, k, today);
    if |cards| > 0 {
      FilterMembers(store, InSection(k, today), cards[0]);
      var j :| 0 <= j < |store| && store[j] == cards[0];
    }
    if exists j :: 0 <= j < |store| && SectionOf(store[j], today) == k {
      var j :| 0 <= j < |store| && SectionOf(store[j], today) == k;
      FilterMembers(store, InSection(k, today), store[j]);
    }
  }

  /**
    `renderTasks(tasks)`: sorts the task list in place by priority, hides every section, then
    appends each task's card to its section and un-hides that section. Returns the sorted list
    (which becomes the page's task list, the card at position `i` carrying `data-task-id` `i`),
    the cards of each section and whether each section is shown.
   */
  method RenderTasks(tasks: seq<Task>, today: int) returns (store: seq<Task>, sections: seq<seq<Task>>, visible: seq<bool>)
    ensures multiset(store) == multiset(tasks) && SortedByRank(store)
    ensures forall p :: OfPriority(store, p) == OfPriority(tasks, p)
    ensures |sections| == 5 && |visible| == 5
    ensures forall k: Section :: sections[k] == SectionCards(store, k, today)
    ensures forall k: Section :: visible[k] <==> |sections[k]| > 0
    ensures forall k: Section :: visible[k] <==> exists t :: t in tasks && SectionOf(t, today) == k
  {
    store := SortByPriority(tasks);
    sections := [[], [], [], [], []];
    visible := [false, false, false, false, false];
    var i := 0;
    while i < |store|
      invariant 0 <= i <= |store|
      invariant |sections| == 5 && |visible| == 5
      invariant forall k: Section :: sections[k] == SectionCards(store[..i], k, today)
      invariant forall k: Section :: visible[k] <==> exists j :: 0 <= j < i && SectionOf(store[j], today) == k
    {
      var t := store[i];
      var k := SectionOf(t, today);
      assert store[..i + 1] == store[..i] + [t];
      forall k': Section
        ensures SectionCards(store[..i + 1], k', today) == SectionCards(store[..i], k', today) + (if k' == k then [t] else [])
      {
        SectionCardsSnoc(store[..i], t, k', today);
      }
      sections := sections[k := sections[k] + [t]];
      visible := visible[k := true];
      i := i + 1;
    }
    assert store[..i] == store;
    SortByPriorityCorrect(tasks);
    VisibleSections(tasks, store, sections, visible, today);
  }

  /** The visibility the render loop leaves behind, restated in terms of sections and of the input list. */
  lemma VisibleSections(tasks: seq<Task>, store: seq<Task>, sections: seq<seq<Task>>, visible: seq<bool>, today: int)
    requires multiset(store) == multiset(tasks)
    requires |sections| == 5 && |visible| == 5
    requires forall k: Section :: sections[k] == SectionCards(store, k, today)
    requires forall k: Section :: visible[k] <==> exists j :: 0 <= j < |store| && SectionOf(store[j], today) == k
    ensures forall k: Section :: visible[k] <==> |sections[k]| > 0
    ensures forall k: Section :: visible[k] <==> exists t :: t in tasks && SectionOf(t, today) == k
  {
    forall k: Section
      ensures visible[k] <==> |sections[k]| > 0
      ensures visible[k] <==> exists t :: t in tasks && SectionOf(t, today) == k
    {
      SectionNonEmpty(store, k, today);
      if visible[k] {
        var j :| 0 <= j < |store| && SectionOf(store[j], today) == k;
        assert store[j] in multiset(tasks);
      }
      if exists t :: t in tasks && SectionOf(t, today) == k {
        var t :| t in tasks && SectionOf(t, today) == k;
        assert t in multiset(store);
        var j :| 0 <= j < |store| && store[j] == t;
      }
    }
  }

  /** The cards of the five sections, as one multiset. */
  ghost function AllCards(store: seq<Task>, today: int): multiset<Task> {
    multiset(SectionCards(store, 0, today)) + multiset(SectionCards(store, 1, today))
      + multiset(SectionCards(store, 2, today)) + multiset(SectionCards(store, 3, today))
      + multiset(SectionCards(store, 4, today))
  }

  /** Prepending a task adds it to the multiset of its own section's cards and to no other. */
  lemma SectionMultisetCons(t: Task, u: seq<Task>, k: Section, today: int)
    ensures multiset(SectionCards([t] + u, k, today))
         == multiset(SectionCards(u, k, today)) + (if SectionOf(t, today) == k then multiset{t} else multiset{})
  {
    SectionCardsCons(t, u, k, today);
  }

  /** Adding `t` to exactly one of five multisets adds it once to their sum. */
  lemma AddToOneOfFive(a: seq<multiset<Task>>, b: seq<multiset<Task>>, t: Task, k: Section)
    requires |a| == 5 && |b| == 5
    requires forall j :: 0 <= j < 5 ==> b[j] == a[j] + (if j == k then multiset{t} else multiset{})
    ensures b[0] + b[1] + b[2] + b[3] + b[4] == a[0] + a[1] + a[2] + a[3] + a[4] + multiset{t}
  {
    assert b[0] == a[0] + (if 0 == k then multiset{t} else multiset{});
    assert b[1] == a[1] + (if 1 == k then multiset{t} else multiset{});
    assert b[2] == a[2] + (if 2 == k then multiset{t} else multiset{});
    assert b[3] == a[3] + (if 3 == k then multiset{t} else multiset{});
    assert b[4] == a[4] + (if 4 == k then multiset{t} else multiset{});
  }

  /** Prepending a task adds its one card to the five sections together. */
  lemma AllCardsCons(t: Task, u: seq<Task>, today: int)
    ensures AllCards([t] + u, today) == AllCards(u, today) + multiset{t}
  {
    var a := seq(5, (j: nat) requires j < 5 => multiset(SectionCards(u, j, today)));
    var b := seq(5, (j: nat) requires j < 5 => multiset(SectionCards([t] + u, j, today)));
    forall j | 0 <= j < 5
      ensures b[j] == a[j] + (if j == SectionOf(t, today) then multiset{t} else multiset{})
    {
      SectionMultisetCons(t, u, j, today);
    }
    AddToOneOfFive(a, b, t, SectionOf(t, today));
  }

  /** The five sections' cards, together, are the list's tasks with their multiplicities. */
  lemma {:induction false} SectionMultisets(store: seq<Task>, today: int)
    ensures AllCards(store, today) == multiset(store)
    decreases |store|
  {
    if |store| > 0 {
      var t, u := store[0], store[1..];
      assert store == [t] + u;
      SectionMultisets(u, today);
      AllCardsCons(t, u, today);
    }
  }

  /** The five sections together hold every task exactly once. */
  lemma SectionsPartition(store: seq<Task>, today: int)
    ensures multiset(SectionCards(store, 0, today)) + multiset(SectionCards(store, 1, today))
          + multiset(SectionCards(store, 2, today)) + multiset(SectionCards(store, 3, today))
          + multiset(SectionCards(store, 4, today)) == multiset(store)
    ensures |SectionCards(store, 0, today)| + |SectionCards(store, 1, today)| + |SectionCards(store, 2, today)|
          + |SectionCards(store, 3, today)| + |SectionCards(store, 4, today)| == |store|
  {
    SectionMultisets(store, today);
    var c0, c1, c2 := SectionCards(store, 0, today), SectionCards(store, 1, today), SectionCards(store, 2, today);
    var c3, c4 := SectionCards(store, 3, today), SectionCards(store, 4, today);
    assert |multiset(c0) + multiset(c1) + multiset(c2) + multiset(c3) + multiset(c4)| == |multiset(store)|;
  }

  /** A task's card is in its own section and in no other. */
  lemma CardInOneSection(store: seq<Task>, t: Task, k: Section, today: int)
    requires t in store
    ensures t in SectionCards(store, k, today) <==> k == SectionOf(t, today)
  {
    FilterMembers(store, InSection(k, today), t);
  }

  const DueToday := "Vence hoje"
  const Expired := "Venceu"
  const DuePrefix := "Vence em "

  /**
    `generateRemainingDates(task)` with the due date and today as day numbers. A future due
    date reads "Vence em N dia" or "Vence em N dias" for N days left. The source then tests
    `today === term`, which compares two distinct `Date` objects by identity and is therefore
    never true: a task due today, like one already past, reads "Venceu".
   */
  function RemainingLabel(term: int, today: int): string {
    if today < term then
      var days := term - today;
      DuePrefix + NatToString(days) + (if days == 1 then " dia" else " dias")
    else Expired
  }

  /** The number of days a caption announces, read back from it; None for a caption that announces none. */
  function DaysLeft(caption: string): Option<int> {
    if |caption| >= |DuePrefix| && caption[..|DuePrefix|] == DuePrefix then ParseInt(caption[|DuePrefix|..])
    else None
  }

  /** Whether a caption uses the singular "dia". */
  predicate Singular(caption: string) {
    |caption| >= 4 && caption[|caption| - 4..] == " dia"
  }

  /**
    The caption of a task due in the future is exactly the prefix, the decimal numeral of the
    days left without leading zeros, and the unit " dia" for one day or " dias" otherwise, with
    nothing after it.
   */
  lemma RemainingLabelShape(term: int, today: int)
    requires today < term
    ensures exists numeral ::
      && AllDigits(numeral) && DigitsValue(numeral) == term - today
      && |numeral| >= 1 && numeral[0] != '0'
      && RemainingLabel(term, today) == DuePrefix + numeral + (if term - today == 1 then " dia" else " dias")
  {
    DigitsValueOfNatToString(term - today);
  }

  /**
    The caption of a task: for a future due date the number of days it announces is the number
    of days left, singular exactly when one day is left; for a due date today or earlier it is
    "Venceu", announcing nothing. "Vence hoje" is never produced.
   */
  lemma RemainingLabelMeaning(term: int, today: int)
    ensures today < term ==> DaysLeft(RemainingLabel(term, today)) == Some(term - today)
    ensures today < term ==> (Singular(RemainingLabel(term, today)) <==> term - today == 1)
    ensures term <= today <==> RemainingLabel(term, today) == Expired
    ensures term <= today ==> DaysLeft(RemainingLabel(term, today)) == None
    ensures RemainingLabel(term, today) != DueToday
  {
    var caption := RemainingLabel(term, today);
    if today < term {
      var days := term - today;
      var numeral := NatToString(days);
      var unit := if days == 1 then " dia" else " dias";
      assert caption == DuePrefix + (numeral + unit);
      assert caption[..|DuePrefix|] == DuePrefix;
      assert caption[|DuePrefix|..] == numeral + unit;
      ParseIntOfNumeral(numeral, unit);
      DigitsValueOfNatToString(days);
      assert caption[5] == ' ' && Expired[5] == 'u';
      assert caption[6] == 'e' && DueToday[6] == 'h';
      if days != 1 {
        assert caption[|caption| - 1] == 's';
      }
    }
  }

  /** The label as evidently intended: "Vence hoje" when the due date is today. */
  function IntendedRemainingLabel(term: int, today: int): string {
    if today < term then RemainingLabel(term, today)
    else if today == term then DueToday
    else Expired
  }

  /** The intended label says "Vence hoje" exactly on the due date and "Venceu" exactly after it. */
  lemma IntendedRemainingLabelMeaning(term: int, today: int)
    ensures IntendedRemainingLabel(term, today) == DueToday <==> term == today
    ensures IntendedRemainingLabel(term, today) == Expired <==> term < today
    ensures today < term ==> DaysLeft(IntendedRemainingLabel(term, today)) == Some(term - today)
  {
    RemainingLabelMeaning(term, today);
  }

  /** The source and the intended label differ exactly on the due date. */
  lemma DueTodayDiscrepancy(term: int, today: int)
    ensures RemainingLabel(term, today) != IntendedRemainingLabel(term, today) <==> term == today
  {
    RemainingLabelMeaning(term, today);
    IntendedRemainingLabelMeaning(term, today);
  }

  /** The labels listed for tomorrow, five days ahead, today and yesterday. */
  lemma RemainingLabelExamples(today: int)
    ensures RemainingLabel(today + 1, today) == "Vence em 1 dia"
    ensures RemainingLabel(today + 5, today) == "Vence em 5 dias"
    ensures RemainingLabel(today, today) == "Venceu"
    ensures RemainingLabel(today - 1, today) == "Venceu"
  {
  }

  /**
    `formatDate(date)`: the year, the one-based month and the day of a `Date`, joined by '-',
    the month and the day padded with a zero to two characters.
   */
  function FormatDate(d: CivilDate): string {
    Join([IntToString(d.year), PadTwo(NatToString(d.month + 1)), PadTwo(NatToString(d.day))], '-')
  }

  /** What lines 138-142 of tarefa.js read from a due-date string; None stands for `NaN`. */
  datatype TermFields = TermFields(year: Option<int>, month: Option<int>, day: Option<int>)

  /** `parseInt(parts[i], 10)`; a missing piece is `undefined`, which reads as `NaN`. */
  function ParsePiece(parts: seq<string>, i: nat): Option<int> {
    if i < |parts| then ParseInt(parts[i]) else None
  }

  /** Lines 138-142: split the due date at '-', read year, zero-based month (`NaN - 1` is `NaN`) and day. */
  function ParseTerm(term: string): TermFields {
    var parts := Split(term, '-');
    var month := ParsePiece(parts, 1);
    TermFields(
      ParsePiece(parts, 0),
      if month.Some? then Some(month.value - 1) else None,
      ParsePiece(parts, 2))
  }

  /** The three pieces of a formatted date, joined by '-' as two nested concatenations. */
  lemma FormatDatePieces(d: CivilDate)
    ensures var y, m, dd := IntToString(d.year), PadTwo(NatToString(d.month + 1)), PadTwo(NatToString(d.day));
      '-' !in m && '-' !in dd && FormatDate(d) == y + ['-'] + (m + ['-'] + dd)
  {
    var y, m, dd := IntToString(d.year), PadTwo(NatToString(d.month + 1)), PadTwo(NatToString(d.day));
    assert '-' !in m && '-' !in dd;
    assert Join([m, dd], '-') == m + ['-'] + dd;
  }

  /** A date with a year that is not negative reads back as its year, zero-based month and day. */
  lemma FormatDateReadsBack(d: CivilDate)
    requires d.year >= 0
    ensures ParseTerm(FormatDate(d)) == TermFields(Some(d.year), Some(d.month), Some(d.day))
  {
    var y, m, dd := IntToString(d.year), PadTwo(NatToString(d.month + 1)), PadTwo(NatToString(d.day));
    FormatDatePieces(d);
    assert '-' !in y;
    SplitOfJoin([y, m, dd], '-');
    ParseIntOfIntToString(d.year);
    ParseIntOfPadded(d.month + 1);
    ParseIntOfPadded(d.day);
  }

  /** A negative year writes a leading '-', so the first piece is empty and the year reads as `NaN`. */
  lemma FormatDateNegativeYear(d: CivilDate)
    requires d.year < 0
    ensures ParseTerm(FormatDate(d)).year == None
  {
    var y, m, dd := IntToString(d.year), PadTwo(NatToString(d.month + 1)), PadTwo(NatToString(d.day));
    FormatDatePieces(d);
    var rest := y[1..] + ['-'] + (m + ['-'] + dd);
    assert FormatDate(d) == [] + ['-'] + rest;
    SplitAtFirst([], '-', rest);
    assert ParseInt("") == None;
  }

  /**
    Reading back a formatted date recovers its year, zero-based month and day, exactly when
    the year is not negative: a negative year writes a leading '-', which the split takes for
    a separator.
   */
  lemma FormatDateRoundTrip(d: CivilDate)
    ensures ParseTerm(FormatDate(d)) == TermFields(Some(d.year), Some(d.month), Some(d.day))
        <==> d.year >= 0
  {
    if d.year >= 0 {
      FormatDateReadsBack(d);
    } else {
      FormatDateNegativeYear(d);
    }
  }
}

=== FILE: tasks.dfy ===
/**
  The task records of the `/tasks` collection and the priority order of the task list
  (tarefa.js). Rendering sorts the page's task array in place by priority rank.
 */
module Tasks {
  import opened Wrappers
  import opened Seqs

  /** The three values of a task's `priority`, the only ones the priority selector offers. */
  datatype Priority = Alta | Media | Baixa

  datatype SubTask = SubTask(title: string, complete: bool)

  /**
    A task record. `term` is the due date as a day number. `date` is the separate `date`
    property that the dashboard compares with the current date string (None when the record
    has none).
   */
  datatype Task = Task(
    id: string,
    title: string,
    description: string,
    term: int,
    priority: Priority,
    complete: bool,
    subTasks: seq<SubTask>,
    date: Option<string>)

  /** `priorityOrder = { 'alta': 1, 'media': 2, 'baixa': 3 }`. */
  function Rank(p: Priority): (r: nat)
    ensures 1 <= r <= 3
  {
    match p
    case Alta => 1
    case Media => 2
    case Baixa => 3
  }

  /** Alta ranks before media, media before baixa, and distinct priorities have distinct ranks. */
  lemma RankOrder(p: Priority, q: Priority)
    ensures Rank(Alta) < Rank(Media) < Rank(Baixa)
    ensures Rank(p) == Rank(q) <==> p == q
  {
  }

  /** The test "this task has priority `p`", as one value for every use. */
  function HasPriority(p: Priority): Task -> bool {
    (t: Task) => t.priority == p
  }

  /** The tasks of priority `p`, in their order in `s`. */
  function OfPriority(s: seq<Task>, p: Priority): seq<Task> {
    Filter(s, HasPriority(p))
  }

  predicate SortedByRank(s: seq<Task>) {
    forall i, j :: 0 <= i < j < |s| ==> Rank(s[i].priority) <= Rank(s[j].priority)
  }

  /**
    Places `t` in front of the first element whose rank is not below its own, so that `t`
    precedes the equal-rank elements that follow it in the input.
   */
  function Insert(t: Task, s: seq<Task>): seq<Task>
    decreases |s|
  {
    if |s| == 0 || Rank(t.priority) <= Rank(s[0].priority) then [t] + s
    else [s[0]] + Insert(t, s[1..])
  }

  /** Insertion adds exactly the inserted task. */
  lemma {:induction false} InsertAddsOne(t: Task, s: seq<Task>)
    ensures multiset(Insert(t, s)) == multiset(s) + multiset{t}
    decreases |s|
  {
    if |s| > 0 && Rank(t.priority) > Rank(s[0].priority) {
      InsertAddsOne(t, s[1..]);
      assert s == [s[0]] + s[1..];
    }
  }

  /**
    `tasks.sort((a, b) => priorityOrder[a.priority] - priorityOrder[b.priority])`. The
    ECMAScript sort is stable, so every stable sort by rank computes it; this one is an
    insertion sort.
   */
  function SortByPriority(s: seq<Task>): (r: seq<Task>)
    ensures multiset(r) == multiset(s)
    decreases |s|
  {
    if |s| == 0 then []
    else
      InsertAddsOne(s[0], SortByPriority(s[1..]));
      assert s == [s[0]] + s[1..];
      Insert(s[0], SortByPriority(s[1..]))
  }

  /** The reference order: the alta tasks, then the media tasks, then the baixa tasks, each group in input order. */
  function Grouped(s: seq<Task>): seq<Task> {
    OfPriority(s, Alta) + OfPriority(s, Media) + OfPriority(s, Baixa)
  }

  /** Inserting past a prefix of strictly lower rank. */
  lemma {:induction false} InsertPast(t: Task, xs: seq<Task>, ys: seq<Task>)
    requires forall i :: 0 <= i < |xs| ==> Rank(xs[i].priority) < Rank(t.priority)
    ensures Insert(t, xs + ys) == xs + Insert(t, ys)
    decreases |xs|
  {
    if |xs| == 0 {
      assert xs + ys == ys;
    } else {
      assert (xs + ys)[0] == xs[0];
      assert (xs + ys)[1..] == xs[1..] + ys;
      InsertPast(t, xs[1..], ys);
      assert [xs[0]] + (xs[1..] + Insert(t, ys)) == xs + Insert(t, ys);
    }
  }

  /** The tasks of one priority all have that priority. */
  lemma OfPriorityMembers(s: seq<Task>, p: Priority)
    ensures forall i :: 0 <= i < |OfPriority(s, p)| ==> OfPriority(s, p)[i].priority == p
  {
    var r := OfPriority(s, p);
    forall i | 0 <= i < |r|
      ensures r[i].priority == p
    {
      FilterMembers(s, HasPriority(p), r[i]);
    }
  }

  /** One step of the grouping: the first task joins the front of its own group. */
  lemma GroupedCons(t: Task, u: seq<Task>, p: Priority)
    ensures OfPriority([t] + u, p) == (if t.priority == p then [t] else []) + OfPriority(u, p)
  {
    assert ([t] + u)[0] == t;
    assert ([t] + u)[1..] == u;
  }

  /** Inserting in front of elements whose rank is not below the inserted one's. */
  lemma InsertInFront(t: Task, ys: seq<Task>)
    requires |ys| == 0 || Rank(t.priority) <= Rank(ys[0].priority)
    ensures Insert(t, ys) == [t] + ys
  {
  }

  lemma InsertAltaIntoGrouped(t: Task, u: seq<Task>)
    requires t.priority == Alta
    ensures Insert(t, Grouped(u)) == Grouped([t] + u)
  {
    var a, m, b := OfPriority(u, Alta), OfPriority(u, Media), OfPriority(u, Baixa);
    GroupedCons(t, u, Alta);
    GroupedCons(t, u, Media);
    GroupedCons(t, u, Baixa);
    assert Grouped([t] + u) == ([t] + a) + m + b;
    InsertInFront(t, a + m + b);
    assert Grouped(u) == a + m + b;
    assert [t] + (a + m + b) == ([t] + a) + m + b;
  }

  lemma InsertMediaIntoGrouped(t: Task, u: seq<Task>)
    requires t.priority == Media
    ensures Insert(t, Grouped(u)) == Grouped([t] + u)
  {
    var a, m, b := OfPriority(u, Alta), OfPriority(u, Media), OfPriority(u, Baixa);
    OfPriorityMembers(u, Alta);
    InsertPast(t, a, m + b);
    if |m| == 0 {
      OfPriorityMembers(u, Baixa);
      assert m + b == b;
    } else {
      OfPriorityMembers(u, Media);
      assert (m + b)[0] == m[0];
    }
    InsertInFront(t, m + b);
    assert a + m + b == a + (m + b);
    GroupedCons(t, u, Alta);
    GroupedCons(t, u, Media);
    GroupedCons(t, u, Baixa);
  }

  lemma InsertBaixaIntoGrouped(t: Task, u: seq<Task>)
    requires t.priority == Baixa
    ensures Insert(t, Grouped(u)) == Grouped([t] + u)
  {
    var a, m, b := OfPriority(u, Alta), OfPriority(u, Media), OfPriority(u, Baixa);
    var am: seq<Task> := a + m;
    OfPriorityMembers(u, Alta);
    OfPriorityMembers(u, Media);
    OfPriorityMembers(u, Baixa);
    assert forall i :: 0 <= i < |am| ==> Rank(am[i].priority) < 3 by {
      forall i | 0 <= i < |am| ensures Rank(am[i].priority) < 3 {
        if i < |a| { assert am[i] == a[i]; } else { assert am[i] == m[i - |a|]; }
      }
    }
    InsertPast(t, a + m, b);
    InsertInFront(t, b);
    GroupedCons(t, u, Alta);
    GroupedCons(t, u, Media);
    GroupedCons(t, u, Baixa);
  }

  /** Inserting a task into the grouped order of `u` gives the grouped order of `[t] + u`. */
  lemma InsertIntoGrouped(t: Task, u: seq<Task>)
    ensures Insert(t, Grouped(u)) == Grouped([t] + u)
  {
    match t.priority
    case Alta => InsertAltaIntoGrouped(t, u);
    case Media => InsertMediaIntoGrouped(t, u);
    case Baixa => InsertBaixaIntoGrouped(t, u);
  }

  /** The insertion sort computes the reference order. */
  lemma {:induction false} SortIsGrouped(s: seq<Task>)
    ensures SortByPriority(s) == Grouped(s)
    decreases |s|
  {
    if |s| == 0 {
      assert OfPriority(s, Alta) == [] && OfPriority(s, Media) == [] && OfPriority(s, Baixa) == [];
    } else {
      SortIsGrouped(s[1..]);
      InsertIntoGrouped(s[0], s[1..]);
      assert [s[0]] + s[1..] == s;
    }
  }

  /** The grouped order is sorted by rank. */
  lemma GroupedIsSorted(s: seq<Task>)
    ensures SortedByRank(Grouped(s))
  {
    var a, m, b := OfPriority(s, Alta), OfPriority(s, Media), OfPriority(s, Baixa);
    OfPriorityMembers(s, Alta);
    OfPriorityMembers(s, Media);
    OfPriorityMembers(s, Baixa);
    var g := a + m + b;
    assert forall i :: 0 <= i < |a| ==> g[i].priority == Alta;
    assert forall i :: |a| <= i < |a| + |m| ==> g[i] == m[i - |a|];
    assert forall i :: |a| + |m| <= i < |g| ==> g[i] == b[i - |a| - |m|];
  }

  /** Grouping keeps, for every priority, the tasks of that priority in their input order. */
  lemma GroupedIsStable(s: seq<Task>, p: Priority)
    ensures OfPriority(Grouped(s), p) == OfPriority(s, p)
  {
    var a, m, b := OfPriority(s, Alta), OfPriority(s, Media), OfPriority(s, Baixa);
    OfPriorityMembers(s, Alta);
    OfPriorityMembers(s, Media);
    OfPriorityMembers(s, Baixa);
    FilterConcat(a + m, b, HasPriority(p));
    FilterConcat(a, m, HasPriority(p));
    match p
    case Alta =>
      FilterKeepsAll(a, HasPriority(p));
      FilterDropsAll(m, HasPriority(p));
      FilterDropsAll(b, HasPriority(p));
    case Media =>
      FilterDropsAll(a, HasPriority(p));
      FilterKeepsAll(m, HasPriority(p));
      FilterDropsAll(b, HasPriority(p));
    case Baixa =>
      FilterDropsAll(a, HasPriority(p));
      FilterDropsAll(m, HasPriority(p));
      FilterKeepsAll(b, HasPriority(p));
  }

  /**
    The rendering sort: a permutation of the input, in non-decreasing rank, in which tasks of
    equal priority keep their relative order.
   */
  lemma SortByPriorityCorrect(s: seq<Task>)
    ensures multiset(SortByPriority(s)) == multiset(s)
    ensures SortedByRank(SortByPriority(s))
    ensures forall p :: OfPriority(SortByPriority(s), p) == OfPriority(s, p)
  {
    SortIsGrouped(s);
    GroupedIsSorted(s);
    forall p
      ensures OfPriority(SortByPriority(s), p) == OfPriority(s, p)
    {
      GroupedIsStable(s, p);
    }
  }

  /** A sequence already sorted by rank is its own grouped order. */
  lemma {:induction false} SortedIsGrouped(s: seq<Task>)
    requires SortedByRank(s)
    ensures Grouped(s) == s
    decreases |s|
  {
    if |s| > 0 {
      var t, u := s[0], s[1..];
      assert s == [t] + u;
      SortedIsGrouped(u);
      GroupedCons(t, u, Alta);
      GroupedCons(t, u, Media);
      GroupedCons(t, u, Baixa);
      match t.priority
      case Alta =>
      case Media =>
        assert forall i :: 0 <= i < |u| ==> !HasPriority(Alta)(u[i]) by {
          forall i | 0 <= i < |u| ensures u[i].priority != Alta {
            assert Rank(s[0].priority) <= Rank(s[i + 1].priority);
          }
        }
        FilterDropsAll(u, HasPriority(Alta));
      case Baixa =>
        assert forall i :: 0 <= i < |u| ==> u[i].priority == Baixa by {
          forall i | 0 <= i < |u| ensures u[i].priority == Baixa {
            assert Rank(s[0].priority) <= Rank(s[i + 1].priority);
          }
        }
        FilterDropsAll(u, HasPriority(Alta));
        FilterDropsAll(u, HasPriority(Media));
    }
  }

  /** Re-rendering does not reorder: sorting a list that is already sorted by rank leaves it as it is. */
  lemma SortOfSortedIsIdentity(s: seq<Task>)
    requires SortedByRank(s)
    ensures SortByPriority(s) == s
  {
    SortIsGrouped(s);
    SortedIsGrouped(s);
  }
}

=== FILE: text.dfy ===
/**
  The string conversions the source performs on numbers and dates: JavaScript's
  number-to-string conversion, `parseInt(s, 10)`, zero padding, `split` and `join`. Numbers are
  unbounded integers here; they agree with JavaScript's doubles for magnitudes below 2^53,
  which every value the source converts (years, months, days, page offsets) stays under.
 */
module Text {
  import opened Wrappers

  predicate IsDigit(c: char) {
    '0' <= c <= '9'
  }

  predicate AllDigits(s: string) {
    forall i :: 0 <= i < |s| ==> IsDigit(s[i])
  }

  function DigitValue(c: char): (d: nat)
    requires IsDigit(c)
    ensures d < 10
  {
    c as int - '0' as int
  }

  function DigitChar(d: nat): (c: char)
    requires d < 10
    ensures IsDigit(c) && DigitValue(c) == d
  {
    ('0' as int + d) as char
  }

  /** The decimal numeral of `n` without leading zeros, as `String(n)` writes a non-negative integer below 10^21. */
  function NatToString(n: nat): (s: string)
    ensures 1 <= |s| && AllDigits(s)
    ensures |s| == 1 <==> n < 10
    ensures n >= 1 ==> s[0] != '0'
    decreases n
  {
    if n < 10 then [DigitChar(n)] else NatToString(n / 10) + [DigitChar(n % 10)]
  }

  /** `String(i)` for an integer of magnitude below 10^21: a minus sign in front of the numeral of a negative number. */
  function IntToString(i: int): (s: string)
    ensures 1 <= |s|
    ensures s[0] == '-' <==> i < 0
    ensures forall k :: 1 <= k < |s| ==> IsDigit(s[k])
    ensures i >= 0 ==> AllDigits(s)
  {
    if i < 0 then "-" + NatToString(-i) else NatToString(i)
  }

  /** The value of a numeral, read most significant digit first. */
  function DigitsValue(s: string): nat
    requires AllDigits(s)
    decreases |s|
  {
    if |s| == 0 then 0 else DigitsValue(s[..|s| - 1]) * 10 + DigitValue(s[|s| - 1])
  }

  /** The length of the run of decimal digits at the front of `s`. */
  function DigitRun(s: string): (n: nat)
    ensures n <= |s|
    ensures AllDigits(s[..n])
    ensures n < |s| ==> !IsDigit(s[n])
    decreases |s|
  {
    if |s| == 0 || !IsDigit(s[0]) then 0
    else
      var m := DigitRun(s[1..]);
      assert s[..1 + m] == [s[0]] + s[1..][..m];
      1 + m
  }

  predicate IsSign(c: char) {
    c == '-' || c == '+'
  }

  /**
    `parseInt(s, 10)`: an optional sign, then the longest run of decimal digits; whatever
    follows the run is ignored. `None` stands for `NaN`, which is the result when no digit
    follows the optional sign. Leading white space, which `parseInt` also skips, never occurs
    in the strings the source parses and is not modelled.
   */
  function ParseInt(s: string): (r: Option<int>)
    ensures r.Some? <==> (|s| > 0 && IsDigit(s[0])) || (|s| > 1 && IsSign(s[0]) && IsDigit(s[1]))
  {
    var signed := |s| > 0 && IsSign(s[0]);
    var body := if signed then s[1..] else s;
    var n := DigitRun(body);
    if n == 0 then None
    else
      var magnitude: int := DigitsValue(body[..n]);
      Some(if signed && s[0] == '-' then -magnitude else magnitude)
  }

  /** Reading back a numeral written by `NatToString` gives the number. */
  lemma {:induction false} DigitsValueOfNatToString(n: nat)
    ensures DigitsValue(NatToString(n)) == n
    decreases n
  {
    var s := NatToString(n);
    if n < 10 {
      assert s[..0] == [];
    } else {
      assert s[..|s| - 1] == NatToString(n / 10);
      DigitsValueOfNatToString(n / 10);
    }
  }

  /** A leading zero does not change the value of a numeral. */
  lemma {:induction false} DigitsValueLeadingZero(s: string)
    requires AllDigits(s)
    ensures DigitsValue("0" + s) == DigitsValue(s)
    decreases |s|
  {
    var z := "0" + s;
    if |s| == 0 {
      assert z[..0] == [];
    } else {
      assert z[..|z| - 1] == "0" + s[..|s| - 1];
      DigitsValueLeadingZero(s[..|s| - 1]);
    }
  }

  /** The digit run of a numeral followed by a non-digit is the whole numeral. */
  lemma {:induction false} DigitRunOfNumeral(d: string, rest: string)
    requires AllDigits(d)
    requires |rest| == 0 || !IsDigit(rest[0])
    ensures DigitRun(d + rest) == |d|
    decreases |d|
  {
    if |d| > 0 {
      assert (d + rest)[1..] == d[1..] + rest;
      DigitRunOfNumeral(d[1..], rest);
    } else {
      assert d + rest == rest;
    }
  }

  /** `parseInt` of a non-empty numeral followed by anything that is not a digit reads the numeral. */
  lemma ParseIntOfNumeral(d: string, rest: string)
    requires 1 <= |d| && AllDigits(d)
    requires |rest| == 0 || !IsDigit(rest[0])
    ensures ParseInt(d + rest) == Some(DigitsValue(d))
  {
    DigitRunOfNumeral(d, rest);
    assert (d + rest)[..|d|] == d;
  }

  /** `parseInt` reads back every integer that `String` writes. */
  lemma ParseIntOfIntToString(i: int)
    ensures ParseInt(IntToString(i)) == Some(i)
  {
    if i < 0 {
      var d := NatToString(-i);
      assert IntToString(i)[1..] == d + "";
      ParseIntOfNumeral(d, "");
      assert d + "" == d;
      DigitsValueOfNatToString(-i);
    } else {
      ParseIntOfNumeral(NatToString(i), "");
      assert NatToString(i) + "" == NatToString(i);
      DigitsValueOfNatToString(i);
    }
  }

  /** `if (x.length < 2) x = '0' + x`: one zero in front of a string shorter than two characters. */
  function PadTwo(s: string): (r: string)
    ensures |r| >= 2 || |s| == 0
    ensures |s| >= 2 ==> r == s
    ensures |s| < 2 ==> |r| == |s| + 1 && r[0] == '0' && r[1..] == s
  {
    if |s| < 2 then "0" + s else s
  }

  /** `n` copies of `c`. */
  function Repeat(c: char, n: nat): (r: string)
    ensures |r| == n && forall i :: 0 <= i < n ==> r[i] == c
  {
    if n == 0 then [] else [c] + Repeat(c, n - 1)
  }

  /** `s.padStart(width, fill)` for a one-character filler: fillers in front up to `width` characters. */
  function PadStart(s: string, width: nat, fill: char): (r: string)
    ensures |r| == if |s| < width then width else |s|
    ensures r[|r| - |s|..] == s
    ensures forall i :: 0 <= i < |r| - |s| ==> r[i] == fill
  {
    if |s| < width then Repeat(fill, width - |s|) + s else s
  }

  /** For a non-empty string, padding to two characters with `padStart` and with `PadTwo` agree. */
  lemma PadStartTwoIsPadTwo(s: string)
    requires |s| >= 1
    ensures PadStart(s, 2, '0') == PadTwo(s)
  {
    if |s| < 2 {
      assert Repeat('0', 1) == "0";
    }
  }

  /** `parseInt` reads a zero-padded numeral back as the number it pads. */
  lemma ParseIntOfPadded(n: nat)
    ensures ParseInt(PadTwo(NatToString(n))) == Some(n)
  {
    var d := NatToString(n);
    DigitsValueOfNatToString(n);
    if |d| < 2 {
      assert AllDigits("0" + d);
      DigitsValueLeadingZero(d);
      ParseIntOfNumeral("0" + d, "");
      assert "0" + d + "" == "0" + d;
    } else {
      ParseIntOfNumeral(d, "");
      assert d + "" == d;
    }
  }

  /**
    `s.split(sep)` for a one-character separator: the pieces between separators, in order.
    There is always at least one piece, and no piece contains the separator.
   */
  function Split(s: string, sep: char): (parts: seq<string>)
    ensures |parts| >= 1
    ensures forall k :: 0 <= k < |parts| ==> sep !in parts[k]
    decreases |s|
  {
    if |s| == 0 then [""]
    else
      var rest := Split(s[1..], sep);
      if s[0] == sep then [""] + rest
      else [[s[0]] + rest[0]] + rest[1..]
  }

  /** `parts.join(sep)`: the pieces with one separator between neighbours. */
  function Join(parts: seq<string>, sep: char): string
    decreases |parts|
  {
    if |parts| == 0 then ""
    else if |parts| == 1 then parts[0]
    else parts[0] + [sep] + Join(parts[1..], sep)
  }

  /** Three pieces joined by '-' are the pieces with a '-' between neighbours. */
  lemma JoinThree(a: string, b: string, c: string)
    ensures Join([a, b, c], '-') == a + "-" + b + "-" + c
  {
    assert [a, b, c][1..] == [b, c];
    assert [b, c][1..] == [c];
    assert Join([b, c], '-') == b + ['-'] + c;
    assert Join([a, b, c], '-') == a + ['-'] + (b + ['-'] + c);
    assert "-" == ['-'];
  }

  /** `YYYY-MM-DD`: four digits, '-', two digits, '-', two digits. */
  predicate IsoDateShape(s: string) {
    && |s| == 10 && s[4] == '-' && s[7] == '-'
    && forall i :: 0 <= i < 10 && i != 4 && i != 7 ==> IsDigit(s[i])
  }

  /** A string without the separator splits into itself. */
  lemma {:induction false} SplitWithoutSeparator(a: string, sep: char)
    requires sep !in a
    ensures Split(a, sep) == [a]
    decreases |a|
  {
    if |a| > 0 {
      SplitWithoutSeparator(a[1..], sep);
      assert [a[0]] + a[1..] == a;
    }
  }

  /** Splitting at the first separator: the piece before it, then the pieces of what follows. */
  lemma {:induction false} SplitAtFirst(a: string, sep: char, b: string)
    requires sep !in a
    ensures Split(a + [sep] + b, sep) == [a] + Split(b, sep)
    decreases |a|
  {
    var s := a + [sep] + b;
    if |a| == 0 {
      assert s[1..] == b;
    } else {
      assert s[1..] == a[1..] + [sep] + b;
      SplitAtFirst(a[1..], sep, b);
      assert [a[0]] + a[1..] == a;
    }
  }

  /** Joining separator-free pieces and splitting the result gives the pieces back. */
  lemma {:induction false} SplitOfJoin(parts: seq<string>, sep: char)
    requires |parts| >= 1
    requires forall k :: 0 <= k < |parts| ==> sep !in parts[k]
    ensures Split(Join(parts, sep), sep) == parts
    decreases |parts|
  {
    if |parts| == 1 {
      SplitWithoutSeparator(parts[0], sep);
    } else {
      SplitOfJoin(parts[1..], sep);
      SplitAtFirst(parts[0], sep, Join(parts[1..], sep));
      assert [parts[0]] + parts[1..] == parts;
    }
  }

  /** What follows `prefix` in `s`, when `s` starts with it. */
  function StripPrefix(prefix: string, s: string): (r: Option<string>)
    ensures r.Some? <==> |prefix| <= |s| && s[..|prefix|] == prefix
    ensures r.Some? ==> s == prefix + r.value
  {
    if |prefix| <= |s| && s[..|prefix|] == prefix then Some(s[|prefix|..]) else None
  }

  /** Stripping a prefix from what it prefixes gives back the rest. */
  lemma StripPrefixOfConcat(prefix: string, rest: string)
    ensures StripPrefix(prefix, prefix + rest) == Some(rest)
  {
    assert (prefix + rest)[..|prefix|] == prefix;
  }

  /** A number below 100 is written with at most two characters. */
  lemma TwoDigitNumeral(n: nat)
    requires n <= 99
    ensures |NatToString(n)| <= 2
  {
    if n >= 10 {
      assert |NatToString(n)| == |NatToString(n / 10)| + 1;
    }
  }

  /** A four-digit number is written with four characters. */
  lemma FourDigitNumeral(n: nat)
    requires 1000 <= n <= 9999
    ensures |NatToString(n)| == 4
  {
    var a := n / 10;
    var b := a / 10;
    var c := b / 10;
    assert 100 <= a <= 999 && 10 <= b <= 99 && 1 <= c <= 9;
    assert |NatToString(b)| == |NatToString(c)| + 1;
    assert |NatToString(a)| == |NatToString(b)| + 1;
  }
}

=== FILE: wrappers.dfy ===
/** The optional-value type used wherever the source can yield `undefined`, `NaN` or "no match". */
module Wrappers {

  datatype Option<+T> = None | Some(value: T)
}
